=== FILE: README.md ===
# weather.app core in Dafny

This project models the logic inside the weather page's rendering glue and
proves properties about it:

- **Ambient FX engine** (`wx-fx.js`):
  - the FX state record `{mode, intensity, windMph, opacity}` and its shallow-merge `set`;
  - the per-mode target population `wantCount`, capped at `MAX = 220`;
  - `spawn`, the population loop of `step`, and the suspension gate;
  - the frame delta, the `resize` geometry, and the four per-mode edge rules.
- **Barometer and tweens** (`wx-app.js`):
  - the pressure ratio, needle angle, arc offset and hue;
  - the trend memory;
  - the cubic ease-out tween and its retargeting;
  - `animateNumber`.
- **Page helpers** (`wx-app.js`):
  - the icon/background table of `getWeatherInfo`;
  - the FX mode and intensity chosen in `render`;
  - the storm-chaser alerts of `buildAlerts` and their severity order.
- **Shared helpers** (`wx-core.js`):
  - the WMO weather-code label, icon, sky mood and visuals;
  - temperature and wind conversion;
  - the moon-phase fraction;
  - the hour-index lookup and `nextChangeInsight`.
- **Older copies** (`icons/wx-core.js`, `icons/wx-app.js`):
  - the unguarded conversions and the per-element conversion of whole forecast arrays;
  - the older barometer, the insight line, and the bounds of the hourly and daily strips.

In `icons/wx-core.js`, these are textually the same as in `wx-core.js`:
`iconFromWeatherCode`, `labelForWeatherCode`, `skyMood`, `visualsForMood`
(lines 13-68), `hourIndexNow` and `nextChangeInsight` (lines 180-207).
Each is modelled once, in `WeatherCodes` and `CoreHelpers`.

## How JavaScript is modelled

- **Numbers** are `real`. `Math.round(x)` is `floor(x + 0.5)`, and `Math.floor` is `Floor`.
- **JS `%` by 1** truncates toward zero. It is written out as `JsRem1`.
- **Random draws.** Each `Math.random()` draw is a parameter `u` in [0, 1), so `rnd(a, b)` becomes `a + u·(b − a)`.
- **Snow wobble.** The snow term `Math.sin(p.wob)` is a parameter in [-1, 1].
- **Parameters in place of host calls.** These become parameters:
  - the clock (`performance.now()`, the frame timestamp, `Date`);
  - the device pixel ratio and the element's box;
  - the reduced-motion preference;
  - the hour key that `Intl.DateTimeFormat` builds.
- **Frame scheduling.** `requestAnimationFrame`/`cancelAnimationFrame` are a set of pending frame ids plus a next-id counter.
- **JSON entries.** Hourly entries that can be `null` or `NaN` are `Alerts.Sample`. Values that may be non-numbers are `CoreHelpers.JsInput`.

## Behaviour the model keeps on purpose

The model follows the code in each case:

- **Retargeting.** A new pressure sample restarts the tween from the previous *target*
  (`pressureAnim.to`, wx-app.js:302), not from the value on screen. A sample arriving
  mid-tween therefore makes the needle jump (`Barometer.RetargetStartsFromPreviousTarget`).
- **Needle range.** Both barometers map [970, 1040] hPa onto [-135°, 45°]. No other
  needle range exists in the code.
- **Hue.** `updateBarometer` sets the pressure ratio, the hue and the trend class once,
  from the raw sample (wx-app.js:300). The tween frames move only the needle and the
  readout. During a tween the hue already shows the new sample while the needle is
  still moving toward it (`Barometer.UpdateBarometer`, `Barometer.HueFollowsPressure`).
- **Population.** The population loop reaches `wantCount()` within a single frame: it
  grows or trims completely, not gradually.
- **Mode switch.** A mode switch discards no particles. The prefix of the pool survives
  with the previous mode's particle shape (`FxEngine.ModeSwitchKeepsOldParticles`).

## Model

| member | source | states |
|---|---|---|
| Numeric.Clamp01 | wx-fx.js:29 | the result lies in [0, 1], equals the input inside it and the nearer bound outside |
| Numeric.JsRound | wx-core.js:120 | `Math.round` lands within half a unit of its argument: x − 0.5 < r ≤ x + 0.5 |
| Text.IntRoundTrip | wx-core.js:125 | the decimal text a number is printed as parses back to the same integer |
| WeatherCodes.LabelForWeatherCode | wx-core.js:31-44 | "Weather" exactly for codes outside the known WMO ranges; otherwise the label of the range the code falls in |
| WeatherCodes.BandsDisjoint | wx-core.js:31-44 | the code ranges compared in turn never overlap, so the first match is the only match |
| WeatherCodes.LabelIsBandLabel | wx-core.js:31-44 | a known code's label is the name of the one range containing it |
| WeatherCodes.IconChoice | wx-core.js:18-28 | the chosen file is one of the icon files and is the fallback exactly for unknown codes |
| WeatherCodes.IconFromWeatherCode | wx-core.js:13-28 | src is `icons/` followed by a known icon file; it is `weather.svg` exactly for unknown codes; code 0 picks `day.svg` or `night.svg` by `isDay`; the class is the one given |
| WeatherCodes.IconDayNightOnlyForClearSkies | wx-core.js:18-19 | only codes 0, 1 and 2 give different icons by day and by night |
| WeatherCodes.IconFallbackMatchesLabel | wx-core.js:27-43 | the fallback icon is used exactly when the label is the fallback "Weather" |
| WeatherCodes.SkyMood | wx-core.js:48-55 | "clear-night" whenever it is night; by day each mood holds exactly for its listed codes and "default" for all others |
| WeatherCodes.SkyMoodFallsBackForDrizzleFogAndSnowShowers | wx-core.js:48-55 | drizzle, fog and snow showers have no mood of their own by day |
| WeatherCodes.VisualsForMood | wx-core.js:58-68 | a listed mood gets its own entry, and any other mood string (none of the keys `Object.prototype` supplies) gets the default entry |
| WeatherCodes.EveryMoodHasOwnVisuals | wx-core.js:58-68 | every mood has a table entry, and distinct moods get distinct gradient colours |
| CoreHelpers.CToF | wx-core.js:115 | the Fahrenheit value f satisfies (f − 32)·5 = 9·c, so the conversion inverts exactly |
| CoreHelpers.ConvertTemp | wx-core.js:118-121 | "--" exactly for a non-number or NaN; for "F" the reading rounds c·9/5+32, otherwise it rounds c |
| CoreHelpers.ConvertTempExamples | wx-core.js:118-121 | 0 °C reads 32 °F, 100 °C reads 212 °F, NaN reads "--" |
| CoreHelpers.ConvertTempMonotone | wx-core.js:118-121 | a warmer input never gives a lower reading |
| CoreHelpers.WindText | wx-core.js:123-126 | "--" for NaN; otherwise the text ends in " mph" for "F" and in " km/h" for any other unit, and its number parses back to round(mph), or to round(mph·1.60934) for km/h |
| CoreHelpers.MoonPhaseFraction | wx-core.js:130-138 | the phase lies in [0, 1) and is the fractional part of the synodic months since the reference new moon |
| CoreHelpers.HourIndexNow | wx-core.js:226-244 | 0 on empty input, otherwise a valid index: the first time starting with the key, or 0 when none does |
| CoreHelpers.NextChangeInsight | wx-core.js:246-253 | a change is the first later hour inside the 18-hour window whose code differs, so inHours ∈ [1, 17] and every hour between has the base code; null exactly when no such hour exists or the list is empty |
| LegacyCore.ConvertTemp | icons/wx-core.js:115-116 | with no guard: rounds c·9/5+32 for "F" and c otherwise, and a `null` array entry reads as 32 °F or 0 °C |
| LegacyCore.WindText | icons/wx-core.js:117 | the older wind text equals the guarded one on every number |
| LegacyCore.ConvertTempAgreesWithGuarded | icons/wx-core.js:116 | on numbers the older and the guarded conversion give the same reading |
| LegacyCore.NullReadsAsFreezing | icons/wx-core.js:153-154 | on a `null` entry the two differ: the guarded one gives "--", the older one the reading of 0 °C |
| LegacyCore.ConvertSeries | icons/wx-core.js:153-154 | the converted array has the input's length and holds the conversion of each element at its index (the daily maps of lines 163-164 are the same call) |
| FxState.Set | wx-fx.js:124-126 | every key present in the update is taken from it, every other key is kept; the intensity (the update's, else the old one) is kept inside [0, 1] and moved to the nearer bound outside it |
| FxState.SetIdempotent | wx-fx.js:124-126 | applying the same update twice equals applying it once |
| FxState.SetNothingKeepsState | wx-fx.js:124-126 | `set({})` leaves an in-range state unchanged |
| FxState.Density | wx-fx.js:34-37 | base plus span of every mode stays within the cap of 220 |
| FxState.WantCount | wx-fx.js:32-38 | the target lies between the mode's base and base+span, and never above `MAX` = 220 |
| FxState.WantCountMonotone | wx-fx.js:32-38 | more intensity never lowers the target of a mode |
| FxState.WantCountExamples | wx-fx.js:32-38 | rain wants 220 at full and 135 at half intensity; an intensity above 1 or below 0 counts as 1 or 0 (snow at 2 wants 150, dust at −1 wants 10); fog at 0.25 wants 10 |
| FxParticles.Rnd | wx-fx.js:30 | a draw in [0, 1) lands in [a, b) |
| FxParticles.NewParticle | wx-fx.js:42-46 | a new particle has the mode's shape, and with uniform draws its position and speeds lie in the ranges `spawn` draws from |
| FxParticles.Spawn | wx-fx.js:40-47 | nothing changes at the cap; below it exactly one particle of the mode is appended and the others are untouched |
| FxParticles.RainRule | wx-fx.js:93-97 | a drop whose moved position passes y = h+20 or x = w+60 is recycled to x ∈ [-0.2w, 1.2w), y ∈ [-120, -20); any other drop keeps its moved position; speeds, length and alpha are kept |
| FxParticles.SnowRule | wx-fx.js:98-105 | the wobble advances by dt·(1.2+wind); a flake whose moved y passes h+10 restarts at y ∈ [-80, -10), x ∈ [0, w); otherwise y is the moved y and x is the moved x, wrapped to w+20 below −20 and to −20 above w+20 |
| FxParticles.FogRule | wx-fx.js:106-109 | a puff whose drifted x is within w+r keeps it and its y; one past w+r restarts at x = −r with y redrawn in [0.15h, 0.75h) |
| FxParticles.DustRule | wx-fx.js:110-117 | a mote whose moved coordinate lies within [-10, w+10] (resp. [-10, h+10]) keeps it; past the far edge it wraps to −10, before −10 to w+10 (resp. h+10); so it always ends in the box |
| FxParticles.Advance | wx-fx.js:92-118 | the particle keeps its shape; the mode's rule moves it |
| FxEngine.Resize | wx-fx.js:15-23 | w and h are the floored box size, or 1 for a box under 1 px; the pixel ratio is min(2, ratio), or 1 when missing; the backing store is floor(size·ratio), at most twice the logical size |
| FxEngine.Create | wx-fx.js:14-27 | the engine starts in the default state with an empty pool, and its surface is `resize()` of the element's box and pixel ratio |
| FxEngine.ResizeEngine | wx-fx.js:128-129 | a resize replaces the geometry with `resize()` of the new box and pixel ratio, and leaves the state, the pool and the frame time alone |
| FxEngine.FrameDelta | wx-fx.js:77 | dt is the elapsed time in seconds when that is at most 0.05 s, and exactly 0.05 s otherwise |
| FxEngine.Populate | wx-fx.js:86-88 | the population loop ends with exactly `wantCount()` particles: the old pool's prefix, then new particles |
| FxEngine.Grow | wx-fx.js:87 | the growth loop only appends and stops at the target, which it reaches because the target never exceeds the cap |
| FxEngine.Trim | wx-fx.js:88 | the shrink loop only pops the tail, down to the target |
| FxEngine.Physics | wx-fx.js:92-119 | every particle is moved by its mode's rule, in place |
| FxEngine.Step | wx-fx.js:76-122 | dt ≤ 0.05; a suspended frame leaves the pool untouched; otherwise the pool ends at `wantCount()` and each particle is the mode's rule applied to the populated pool; the pool never exceeds the cap |
| FxEngine.PopulatedKeepsPrefix | wx-fx.js:86-88 | the common prefix of the old and new pool is preserved, and new slots hold particles of the mode |
| FxEngine.PopulatedIdempotent | wx-fx.js:86-88 | a second population pass with the same state changes nothing |
| FxEngine.ModeSwitchKeepsOldParticles | wx-fx.js:86-88 | after a mode switch the surviving particles still have the previous mode's shape |
| Barometer.PressureRatio | wx-app.js:238-241 | the ratio lies in [0, 1], maps an in-range pressure back to itself, and pins out-of-range pressures to 0 and 1 |
| Barometer.PressureRatioExamples | wx-app.js:238-241 | 970 → 0, 1005 → 0.5, 1040 → 1, and 900 and 1100 pin to the ends |
| Barometer.PressureRatioMonotone | wx-app.js:238-241 | a higher pressure never gives a lower ratio |
| Barometer.UpdateBarometerInstant | wx-app.js:252-284 | the needle lies in [-135°, 45°] and the arc offset in [0, 212], in proportion to each other; the angle determines an in-range pressure; the readout rounds the pressure |
| Barometer.NeedleMonotone | wx-app.js:255-265 | a higher pressure turns the needle further and shortens the offset |
| Barometer.NeedleEndpoints | wx-app.js:258-260 | 970 hPa points at −135° and 1040 hPa at 45° |
| Barometer.ClassifyTrend | wx-app.js:286-293 | stable without a previous sample or when the change is under 1 hPa, rising for a rise of 1 or more, falling for a drop of 1 or more |
| Barometer.TrendReverses | wx-app.js:289-292 | swapping the two samples swaps rising and falling and keeps stable |
| Barometer.TrendExamples | wx-app.js:286-293 | 1010 → 1010.5 is stable, → 1015 rising, → 1002 falling; the first sample is stable |
| Barometer.SetPressureVisuals | wx-app.js:237-250 | the ratio is the pressure's position on the 970–1040 hPa scale; the hue rounds 25 + 185·ratio and lies in [25, 210]; the trend class is the given trend |
| Barometer.HueFollowsPressure | wx-app.js:237-243 | a higher pressure never gives a lower hue; 970 hPa and below give 25, 1040 hPa and above give 210 |
| Barometer.Ease | wx-app.js:309 | the ease maps [0, 1] into [0, 1] |
| Barometer.EaseEndpoints | wx-app.js:309 | ease(0) = 0 and ease(1) = 1 |
| Barometer.EaseMonotone | wx-app.js:309 | the ease never decreases on [0, 1] |
| Barometer.Interpolate | wx-app.js:312 | with a weight in [0, 1] the value lies between from and to; it is to at weight 1 and from at weight 0 |
| Barometer.TweenFrame | wx-app.js:310-316 | progress is at most 1; another frame is requested exactly while the duration has not elapsed; the last frame shows the target; every frame at or after the start lies between origin and target |
| Barometer.UpdateBarometer | wx-app.js:286-317 | the trend is classified against the last raw sample, which is then replaced; the tween restarts from the previous target (or the pressure itself on the first call); the pending frame is cancelled and exactly one fresh frame is requested; the ratio, hue and trend class are set from the raw sample |
| Barometer.PressureStep | wx-app.js:310-316 | the needle shown lies between the needles of origin and target; the fired frame leaves the queue, so only the newly requested frame is pending, and after the final frame, which shows the target, none is |
| Barometer.TweensNeverOverlap | wx-app.js:307-316 | update, step, update leaves only the newest frame pending, and the last frame leaves none |
| Barometer.RetargetStartsFromPreviousTarget | wx-app.js:302-305 | half-way through 1000 → 1010 the gauge shows 1008.75 (readout 1009), yet a new sample restarts the tween from 1010 |
| Barometer.AnimateNumber | wx-app.js:110-114 | the tween starts from the stored previous target (or the new value the first time), and the new value is stored |
| Barometer.NumberTick | wx-app.js:117-123 | at or after the start the shown number stays between the rounded origin and target, the last tick shows the rounded target, and ticks continue exactly while the 520 ms have not elapsed |
| App.TableEntry | wx-app.js:59-84 | the table has a row exactly for its 23 listed codes, none of them "Unknown" and each with a known icon file |
| App.GetWeatherInfo | wx-app.js:50-88 | path is `icons/` plus the file; "Unknown" with `weather.svg` and the cloudy-day background exactly for codes outside the table; code 0 picks day or night icon and background by `isDay` |
| App.DayNightOnlyForCodesUpToThree | wx-app.js:60-63 | day and night give different results exactly for codes 0 to 3 |
| App.TableCodesAreKnownCodes | wx-app.js:59-83 | every table code has a label, but not every labelled code has a table row (56 is "Unknown") |
| App.TableAgreesWithIconHelper | wx-app.js:59-83 | the table and `iconFromWeatherCode` choose the same file for every table code except 75 |
| App.FxModeForCode | wx-app.js:451-455 | fog exactly for 45–48; snow exactly for 71–77 and 85–86; rain exactly for 51–67, 80–82 and ≥ 95; dust otherwise |
| App.FxModeAgreesWithCodeFamilies | wx-app.js:451-455 | every rainy sky mood gives the rain effect; fog and snow codes give theirs; unknown codes give dust |
| App.FxRequest | wx-app.js:457-461 | the update carries the mode and the wind, keeps the opacity, and its intensity is the precipitation probability over 100, within [0, 1] |
| App.RenderSetsFx | wx-app.js:457-461 | after `render` the engine's intensity is the probability over 100 and its mode the classified one |
| Alerts.ToNumber | wx-app.js:146 | `null` becomes 0, NaN has no value, numbers are kept |
| Alerts.At | wx-app.js:148-152 | the time read is the one at min(idx + hours, last index); the reference is that hour exactly when the time exists and is non-empty, and "Now" otherwise |
| Alerts.MaxFinite | wx-app.js:165 | the maximum bounds every finite sample and the seed, and is one of them |
| Alerts.ThunderRule | wx-app.js:158-161 | one crit thunderstorm alert exactly for codes ≥ 95 |
| Alerts.RainRule | wx-app.js:163-169 | one heavy-rain warning exactly when a rain code meets the probability test |
| Alerts.WindRule | wx-app.js:171-176 | high wind exactly from 35 mph, gusty winds exactly for 25 ≤ wind < 35, never both |
| Alerts.SnowRule | wx-app.js:178-182 | one snow watch exactly for the snow codes |
| Alerts.PressureRule | wx-app.js:184-190 | one falling-pressure watch exactly when both samples are finite and the drop is at least 3 hPa |
| Alerts.OfSeverity | wx-app.js:193-194 | the filter keeps only alerts of the given severity |
| Alerts.SortBySeverityCorrect | wx-app.js:193-194 | the sorted list is ordered crit < warn < watch, is a permutation of the input, and keeps the order within each severity |
| Alerts.SortBySeverityUnique | wx-app.js:193-194 | any ordered list with the same per-severity order is the sorted list, so the stable sort has one possible result |
| Alerts.SortedIsGrouped | wx-app.js:193-194 | sorting an already ordered list changes nothing |
| Alerts.BuildAlerts | wx-app.js:141-196 | the alerts come out ordered by severity. Thunderstorm iff code ≥ 95. Heavy rain iff a rain code meets pop ≥ 80 or the six-hour finite maximum is ≥ 85. High wind iff ≥ 35 mph, gusty iff 25 ≤ wind < 35. Snow iff a snow code. Falling pressure iff the three-hour drop is ≤ −3 hPa |
| Alerts.RawAlertsAlreadySorted | wx-app.js:158-194 | the rules push alerts in severity order already, so the sort leaves them as pushed |
| Alerts.FuturePopMaxCoversNow | wx-app.js:165 | the look-ahead maximum includes the current probability and is NaN whenever that is |
| Alerts.KindsOfRaw | wx-app.js:158-190 | each rule fires exactly under its own condition |
| LegacyApp.UpdateBarometer | icons/wx-app.js:55-72 | the needle lies in [-135°, 45°] with the ends for out-of-range pressures; the trend text follows the 1 hPa rule and appears only with a trend element; the readout parses back to round(pressure); the sample is remembered always |
| LegacyApp.NeedleAgreesWithNewerGauge | icons/wx-app.js:56-59 | the older needle angle equals the newer gauge's for every pressure |
| LegacyApp.RefreshBarometer | icons/wx-app.js:134-135 | a missing pressure sample leaves the gauge alone; a present one goes through `updateBarometer` with the remembered sample and the page's trend element, and is remembered |
| LegacyApp.InsightText | icons/wx-app.js:90-93 | the stable line exactly when there is no change; otherwise "Next change: <label> in ~<n>h", where n reads back as the hours until the change |
| LegacyApp.InsightTextKeepsHours | icons/wx-app.js:90-93 | two changes with the same label and different hours give different lines |
| LegacyApp.Insight | icons/wx-app.js:88-94 | the stable line exactly when every hour of the 18-hour window has the current code |
| LegacyApp.HourlyWindow | icons/wx-app.js:97-112 | chips cover idx … min(idx+12, len)−1: at most 12, the first labelled "Now", the rest by their hour |
| LegacyApp.DailyRows | icons/wx-app.js:115-131 | min(7, len) rows, the first labelled "Today" |

## Left out

- Canvas drawing (`draw`, gradients, `clearRect`), frame scheduling, `matchMedia`
  and the event listeners. These are host I/O. One frame is `FxEngine.Step`, taking the
  timestamp and the reduced-motion flag.
- Transcendental maths, which has no exact real counterpart:
  - `Math.sin` in the snow wobble (wx-fx.js:100) is a parameter in [-1, 1];
  - the pressure-dot position (cos/sin, wx-app.js:269-275) is not modelled;
  - the moon illumination (cos) is not modelled.
- The network and location (`fetchOpenMeteo`, `getLocationViaIP`, `resolveLocation`,
  browser geolocation) and all of `script.js`.
- `Intl.DateTimeFormat`, `Date` and `computeMoonPhaseArray`. The hour key and the
  timestamps are parameters. A time an alert points at is kept as an index, not
  formatted.
- DOM and HTML templating:
  - the `render` row building and its 24-hour strip;
  - the `renderAlerts` markup and `toggleDailyDetail`;
  - all of `icons/wx-widget.js`;
  - the alert detail prose.
- `toFixed` formatting (`getPrecip`, the inHg display).
- IEEE-754 rounding. Everything is over `real`, so equalities such as 1005 → 0.5 hold
  exactly only there.
- NaN and Infinity as pressures, wind speeds or intensities. Only the places that test
  for them are modelled: `convertTemp`/`windText` and the NaN and `null` pop entries of
  `buildAlerts`.
- Mode strings other than the four modes. `set` accepts any object, but the page only
  ever sends the four modes.
- Keys whose value is `undefined` in `set`'s spread.
- Alert severities outside crit/warn/watch (the `?? 9` rank). Every alert carries one
  of the three.
- The `isDay = 1` default of `getWeatherInfo`. Callers pass a truthiness already reduced
  to a boolean.
- FxParticles.Advance: a particle whose shape does not match the current mode is
  returned unchanged. After a mode switch the script instead applies the new mode's
  formulas and drawing to it, and a missing field reads as `undefined`. What follows
  depends on the pair. A particle without `wob` under snow, or without `vy` under rain
  or dust, gets a NaN coordinate and is no longer drawn. Flakes and motes under rain,
  fog or dust, and drops under dust, keep finite positions; after snow → dust the
  flakes stay visible. A drop under fog has no `r`, so `createRadialGradient` at
  wx-fx.js:64 throws. `step` then never reaches `requestAnimationFrame` (wx-fx.js:121),
  and after rain → fog the effect stops for good. The model's `FxEngine.Step` keeps
  running in that case.
- FxParticles.SnowRule: the y bound is stated only for a jitter within [-1, 1] and a
  non-negative height. The x bound and the edge wrap are stated only for a
  non-negative width, and the restart box only for draws in [0, 1).
- FxParticles.RainRule: the restart box is stated only for draws in [0, 1) and a
  positive width. For a zero width `rnd(0, 0)` is 0, which the half-open box excludes.
- FxParticles.FogRule: the restart band is stated only for a draw in [0, 1) and a
  positive height.
- WeatherCodes.VisualsForMood: keys inherited from `Object.prototype` ("toString",
  "constructor", "__proto__") are not modelled. `V[mood] || V.default` returns the
  inherited member for them; the model gives the default entry. The callers
  (icons/wx-app.js:46-47) pass only what `skyMood` returns, and every such key has its own entry.

=== FILE: alerts.dfy ===
/** The storm-chaser alert heuristics of wx-app.js (`buildAlerts`): which
    alerts fire for the current code, wind, precipitation probability and
    pressure trend, and their stable ordering crit < warn < watch. Alert
    detail prose is not modelled; the time an alert refers to is kept as an
    index into the hourly times. */
module Alerts {
  import opened Wrappers

  datatype Severity = Crit | Warn | Watch {
    /** `rank = { crit: 0, warn: 1, watch: 2 }`. */
    function Rank(): nat {
      match this
      case Crit => 0
      case Warn => 1
      case Watch => 2
    }
  }

  datatype Kind = Thunderstorm | HeavyRain | HighWind | GustyWinds | SnowVisibility | FallingPressure {
    function Severity(): Severity {
      match this
      case Thunderstorm => Crit
      case HeavyRain => Warn
      case HighWind => Warn
      case GustyWinds => Watch
      case SnowVisibility => Watch
      case FallingPressure => Watch
    }

    function Title(): string {
      match this
      case Thunderstorm => "Thunderstorm"
      case HeavyRain => "Heavy Rain Possible"
      case HighWind => "High Wind"
      case GustyWinds => "Gusty Winds"
      case SnowVisibility => "Snow / Reduced Visibility"
      case FallingPressure => "Falling Pressure"
    }
  }

  /** "Now", or the hourly time at an index (formatted for display by the page). */
  datatype When = Now | AtHour(index: nat)

  datatype Alert = Alert(kind: Kind, when: When) {
    function Rank(): nat { kind.Severity().Rank() }
  }

  /** One element of an hourly series as parsed from JSON: a number, `null`,
      or `NaN`. */
  datatype Sample = Value(v: real) | Null | NaN

  /** `Number(x)`: `null` is 0, `NaN` has no numeric value (`None`). */
  function ToNumber(s: Sample): (r: Option<real>)
    ensures s.Value? ==> r == Some(s.v)
    ensures s.Null? ==> r == Some(0.0)
    ensures r.None? <==> s.NaN?
  {
    match s
    case Value(v) => Some(v)
    case Null => Some(0.0)
    case NaN => None
  }

  /** The hourly series `buildAlerts` reads. */
  datatype Hourly = Hourly(time: seq<string>, pop: seq<Sample>, pressure: seq<Sample>)

  /** `(hourly.time?.length || 1) - 1`: the last time index, 0 when there are none. */
  function LastTimeIndex(h: Hourly): nat {
    if |h.time| == 0 then 0 else |h.time| - 1
  }

  /** `at(hoursFromNow)`: the time `hoursFromNow` ahead, held at the last
      hour, or "Now" when there is no such time string. */
  function At(h: Hourly, idx: nat, hoursFromNow: nat): (w: When)
    ensures w.AtHour? ==> w.index < |h.time| && h.time[w.index] != ""
    ensures w.AtHour? ==> w.index <= idx + hoursFromNow
    ensures var k := if idx + hoursFromNow <= LastTimeIndex(h) then idx + hoursFromNow else LastTimeIndex(h);
      && ((k < |h.time| && h.time[k] != "") <==> w.AtHour?)
      && (w.AtHour? ==> w.index == k)
  {
    var k := if idx + hoursFromNow < LastTimeIndex(h) then idx + hoursFromNow else LastTimeIndex(h);
    if k < |h.time| && h.time[k] != "" then AtHour(k) else Now
  }

  /** `Number(hourly.pop?.[idx] ?? 0)`. */
  function PopNow(h: Hourly, idx: nat): Option<real> {
    if idx < |h.pop| then ToNumber(h.pop[idx]) else Some(0.0)
  }

  /** The largest finite value among `s` and `acc`. */
  function MaxFinite(s: seq<Sample>, acc: real): (m: real)
    ensures m >= acc
    ensures forall i :: 0 <= i < |s| && ToNumber(s[i]).Some? ==> m >= ToNumber(s[i]).value
    ensures m == acc || exists i :: 0 <= i < |s| && ToNumber(s[i]) == Some(m)
    decreases |s|
  {
    if |s| == 0 then acc
    else
      var rest := MaxFinite(s[1..], acc);
      match ToNumber(s[0])
      case Some(v) =>
        if v > rest then v
        else
          assert forall i :: 1 <= i < |s| ==> s[i] == s[1..][i - 1];
          rest
      case None =>
        assert forall i :: 1 <= i < |s| ==> s[i] == s[1..][i - 1];
        rest
  }

  /** The hours `slice(idx, idx + 6)` looks at. */
  function NextSixHours(pops: seq<Sample>, idx: nat): seq<Sample> {
    if idx >= |pops| then [] else pops[idx..if idx + 6 < |pops| then idx + 6 else |pops|]
  }

  /** `Math.max(...finite pops of the next six hours, pop)`: `NaN` (`None`) as
      soon as the current probability is `NaN`. */
  function FuturePopMax(h: Hourly, idx: nat): Option<real> {
    match PopNow(h, idx)
    case None => None
    case Some(p) => Some(MaxFinite(NextSixHours(h.pop, idx), p))
  }

  /** Rain codes for the heavy-rain heuristic: drizzle, rain and showers. */
  predicate IsAlertRain(c: int) {
    (61 <= c <= 67) || (80 <= c <= 82) || (51 <= c <= 57)
  }

  /** Snow codes for the snow watch. */
  predicate IsAlertSnow(c: int) {
    (71 <= c <= 77) || (85 <= c <= 86)
  }

  /** A comparison `x >= bound` where `x` may be `NaN` (always false then). */
  predicate AtLeast(x: Option<real>, bound: real) {
    x.Some? && x.value >= bound
  }

  predicate HeavyRainRisk(code: int, h: Hourly, idx: nat) {
    IsAlertRain(code) && (AtLeast(PopNow(h, idx), 80.0) || AtLeast(FuturePopMax(h, idx), 85.0))
  }

  /** A finite pressure now and three hours on (held at the last hour) that
      has dropped by at least 3 hPa. */
  predicate PressureDropping(h: Hourly, idx: nat) {
    var future := if idx + 3 < LastTimeIndex(h) then idx + 3 else LastTimeIndex(h);
    && idx < |h.pressure| && h.pressure[idx].Value?
    && future < |h.pressure| && h.pressure[future].Value?
    && h.pressure[future].v - h.pressure[idx].v <= -3.0
  }

  /** The alert each rule pushes, if any; the kinds a rule can push are
      stated so that the rules can be told apart in the pushed list. */
  function ThunderRule(code: int): (r: seq<Alert>)
    ensures |r| <= 1
    ensures forall a :: a in r ==> a.kind == Thunderstorm
    ensures r != [] <==> code >= 95
  {
    if code >= 95 then [Alert(Thunderstorm, Now)] else []
  }

  function RainRule(code: int, h: Hourly, idx: nat): (r: seq<Alert>)
    ensures |r| <= 1
    ensures forall a :: a in r ==> a.kind == HeavyRain
    ensures r != [] <==> HeavyRainRisk(code, h, idx)
  {
    if HeavyRainRisk(code, h, idx) then [Alert(HeavyRain, At(h, idx, 0))] else []
  }

  /** At most one of the two wind alerts: the high-wind test comes first. */
  function WindRule(windMph: real): (r: seq<Alert>)
    ensures |r| <= 1
    ensures forall a :: a in r ==> a.kind in {HighWind, GustyWinds}
    ensures Has(r, HighWind) <==> windMph >= 35.0
    ensures Has(r, GustyWinds) <==> 25.0 <= windMph < 35.0
  {
    if windMph >= 35.0 then [Alert(HighWind, Now)]
    else if windMph >= 25.0 then [Alert(GustyWinds, Now)] else []
  }

  function SnowRule(code: int): (r: seq<Alert>)
    ensures |r| <= 1
    ensures forall a :: a in r ==> a.kind == SnowVisibility
    ensures r != [] <==> IsAlertSnow(code)
  {
    if IsAlertSnow(code) then [Alert(SnowVisibility, Now)] else []
  }

  function PressureRule(h: Hourly, idx: nat): (r: seq<Alert>)
    ensures |r| <= 1
    ensures forall a :: a in r ==> a.kind == FallingPressure
    ensures r != [] <==> PressureDropping(h, idx)
  {
    if PressureDropping(h, idx) then [Alert(FallingPressure, At(h, idx, 3))] else []
  }

  /** The alerts in the order `buildAlerts` pushes them. */
  function RawAlerts(code: int, windMph: real, h: Hourly, idx: nat): seq<Alert> {
    ThunderRule(code) + RainRule(code, h, idx) + WindRule(windMph) + SnowRule(code) + PressureRule(h, idx)
  }

  /** The alerts of one severity, in their original order. */
  function OfSeverity(s: seq<Alert>, sev: Severity): (r: seq<Alert>)
    ensures |r| <= |s|
    ensures forall i :: 0 <= i < |r| ==> r[i].kind.Severity() == sev
  {
    if |s| == 0 then []
    else if s[0].kind.Severity() == sev then [s[0]] + OfSeverity(s[1..], sev)
    else OfSeverity(s[1..], sev)
  }

  /** `alerts.sort((a, b) => rank[a.severity] - rank[b.severity])`. The sort
      is stable, so its result is the crit alerts, then the warn alerts, then
      the watch alerts, each group in pushing order. */
  function SortBySeverity(s: seq<Alert>): seq<Alert> {
    OfSeverity(s, Crit) + OfSeverity(s, Warn) + OfSeverity(s, Watch)
  }

  predicate SortedByRank(s: seq<Alert>) {
    forall i, j :: 0 <= i < j < |s| ==> s[i].Rank() <= s[j].Rank()
  }

  /** Some alert of kind `k` is in the list. */
  predicate Has(s: seq<Alert>, k: Kind) {
    exists a :: a in s && a.kind == k
  }

  /** The sort orders by rank, keeps every alert, and keeps the order of the
      alerts of each severity. */
  lemma SortBySeverityCorrect(s: seq<Alert>)
    ensures SortedByRank(SortBySeverity(s))
    ensures multiset(SortBySeverity(s)) == multiset(s)
    ensures forall sev: Severity :: OfSeverity(SortBySeverity(s), sev) == OfSeverity(s, sev)
  {
    GroupsSorted(s);
    SplitMultiset(s);
    forall sev: Severity
      ensures OfSeverity(SortBySeverity(s), sev) == OfSeverity(s, sev)
    {
      GroupsKept(s, sev);
    }
  }

  lemma GroupsSorted(s: seq<Alert>)
    ensures SortedByRank(SortBySeverity(s))
  {
    var c, w, a := OfSeverity(s, Crit), OfSeverity(s, Warn), OfSeverity(s, Watch);
    forall i, j | 0 <= i < j < |c + w + a| ensures (c + w + a)[i].Rank() <= (c + w + a)[j].Rank() {
      RankAt(c, w, a, i);
      RankAt(c, w, a, j);
    }
  }

  /** The rank of a position of three concatenated single-severity parts
      is fixed by the part it falls in. */
  lemma RankAt(c: seq<Alert>, w: seq<Alert>, a: seq<Alert>, i: nat)
    requires forall k :: 0 <= k < |c| ==> c[k].kind.Severity() == Crit
    requires forall k :: 0 <= k < |w| ==> w[k].kind.Severity() == Warn
    requires forall k :: 0 <= k < |a| ==> a[k].kind.Severity() == Watch
    requires i < |c + w + a|
    ensures (c + w + a)[i].Rank() == if i < |c| then 0 else if i < |c| + |w| then 1 else 2
  {
    if i < |c| {
      assert (c + w + a)[i] == c[i];
    } else if i < |c| + |w| {
      assert (c + w + a)[i] == w[i - |c|];
    } else {
      assert (c + w + a)[i] == a[i - |c| - |w|];
    }
  }

  lemma GroupsKept(s: seq<Alert>, sev: Severity)
    ensures OfSeverity(SortBySeverity(s), sev) == OfSeverity(s, sev)
  {
    OfGrouped(OfSeverity(s, Crit), OfSeverity(s, Warn), OfSeverity(s, Watch), sev);
  }

  /** Filtering three single-severity parts, concatenated in rank order,
      gives the parts back. */
  lemma OfGrouped(c: seq<Alert>, w: seq<Alert>, a: seq<Alert>, sev: Severity)
    requires forall i :: 0 <= i < |c| ==> c[i].kind.Severity() == Crit
    requires forall i :: 0 <= i < |w| ==> w[i].kind.Severity() == Warn
    requires forall i :: 0 <= i < |a| ==> a[i].kind.Severity() == Watch
    ensures OfSeverity(c + w + a, sev) == match sev case Crit => c case Warn => w case Watch => a
  {
    OfSeverityAppend(c + w, a, sev);
    OfSeverityAppend(c, w, sev);
    OfSeverityOnly(c, Crit, sev);
    OfSeverityOnly(w, Warn, sev);
    OfSeverityOnly(a, Watch, sev);
    match sev
    case Crit => assert c + [] + [] == c;
    case Warn => assert [] + w + [] == w;
    case Watch => assert [] + [] + a == a;
  }

  lemma {:induction false} SplitMultiset(s: seq<Alert>)
    ensures multiset(OfSeverity(s, Crit)) + multiset(OfSeverity(s, Warn)) + multiset(OfSeverity(s, Watch)) == multiset(s)
  {
    if |s| > 0 {
      var x, t := s[0], s[1..];
      SplitMultiset(t);
      assert s == [x] + t;
      OfSeverityCons(x, t, Crit);
      OfSeverityCons(x, t, Warn);
      OfSeverityCons(x, t, Watch);
      assert multiset(s) == multiset{x} + multiset(t);
    }
  }

  lemma {:induction false} OfSeverityAppend(a: seq<Alert>, b: seq<Alert>, sev: Severity)
    ensures OfSeverity(a + b, sev) == OfSeverity(a, sev) + OfSeverity(b, sev)
  {
    if |a| > 0 {
      assert (a + b)[1..] == a[1..] + b;
      OfSeverityAppend(a[1..], b, sev);
    } else {
      assert a + b == b;
    }
  }

  /** Filtering a list of one severity keeps all of it or none of it. */
  lemma {:induction false} OfSeverityOnly(s: seq<Alert>, has: Severity, sev: Severity)
    requires forall i :: 0 <= i < |s| ==> s[i].kind.Severity() == has
    ensures OfSeverity(s, sev) == if has == sev then s else []
  {
    if |s| > 0 {
      OfSeverityOnly(s[1..], has, sev);
      assert s == [s[0]] + s[1..];
    }
  }

  /** A list already ordered by rank is its own three severity groups. */
  lemma {:induction false} SortedIsGrouped(s: seq<Alert>)
    requires SortedByRank(s)
    ensures s == SortBySeverity(s)
  {
    if |s| > 0 {
      var x, t := s[0], s[1..];
      assert SortedByRank(t);
      SortedIsGrouped(t);
      var c, w, a := OfSeverity(t, Crit), OfSeverity(t, Warn), OfSeverity(t, Watch);
      assert s == [x] + (c + w + a);
      forall i | 0 <= i < |t| ensures x.Rank() <= t[i].Rank() {
        assert t[i] == s[i + 1];
      }
      match x.kind.Severity()
      case Crit =>
        assert s == ([x] + c) + w + a;
        GroupedAll([x] + c, w, a);
      case Warn =>
        NoneOfSeverity(t, Crit);
        assert s == [] + ([x] + w) + a;
        GroupedAll([], [x] + w, a);
      case Watch =>
        NoneOfSeverity(t, Crit);
        NoneOfSeverity(t, Warn);
        assert s == [] + [] + ([x] + a);
        GroupedAll([], [], [x] + a);
    }
  }

  lemma GroupedAll(c: seq<Alert>, w: seq<Alert>, a: seq<Alert>)
    requires forall i :: 0 <= i < |c| ==> c[i].kind.Severity() == Crit
    requires forall i :: 0 <= i < |w| ==> w[i].kind.Severity() == Warn
    requires forall i :: 0 <= i < |a| ==> a[i].kind.Severity() == Watch
    ensures SortBySeverity(c + w + a) == c + w + a
  {
    OfGrouped(c, w, a, Crit);
    OfGrouped(c, w, a, Warn);
    OfGrouped(c, w, a, Watch);
  }

  lemma OfSeverityCons(x: Alert, t: seq<Alert>, sev: Severity)
    ensures OfSeverity([x] + t, sev) == if x.kind.Severity() == sev then [x] + OfSeverity(t, sev) else OfSeverity(t, sev)
  {
    assert ([x] + t)[1..] == t;
  }

  lemma {:induction false} NoneOfSeverity(s: seq<Alert>, sev: Severity)
    requires forall i :: 0 <= i < |s| ==> s[i].kind.Severity() != sev
    ensures OfSeverity(s, sev) == []
  {
    if |s| > 0 {
      NoneOfSeverity(s[1..], sev);
    }
  }

  /** A stable sort has exactly one possible result: any list ordered by
      rank with the same alerts of each severity in the same order is the
      sorted list. */
  lemma SortBySeverityUnique(s: seq<Alert>, t: seq<Alert>)
    requires SortedByRank(t)
    requires forall sev: Severity :: OfSeverity(t, sev) == OfSeverity(s, sev)
    ensures t == SortBySeverity(s)
  {
    SortedIsGrouped(t);
  }

  /** `buildAlerts(curr, hourly, idx, timezone)` with `curr.code ?? 0` and
      `Number(curr.rawWindSpeed ?? 0)` already applied. */
  function BuildAlerts(code: int, windMph: real, h: Hourly, idx: nat): (r: seq<Alert>)
    ensures SortedByRank(r)
    ensures multiset(r) == multiset(RawAlerts(code, windMph, h, idx))
    ensures Has(r, Thunderstorm) <==> code >= 95
    ensures Has(r, HeavyRain) <==> HeavyRainRisk(code, h, idx)
    ensures Has(r, HighWind) <==> windMph >= 35.0
    ensures Has(r, GustyWinds) <==> 25.0 <= windMph < 35.0
    ensures Has(r, SnowVisibility) <==> IsAlertSnow(code)
    ensures Has(r, FallingPressure) <==> PressureDropping(h, idx)
  {
    var raw := RawAlerts(code, windMph, h, idx);
    SortBySeverityCorrect(raw);
    KindsOfRaw(code, windMph, h, idx);
    SameMultisetSameKinds(raw, SortBySeverity(raw));
    SortBySeverity(raw)
  }

  lemma KindsOfRaw(code: int, windMph: real, h: Hourly, idx: nat)
    ensures var raw := RawAlerts(code, windMph, h, idx);
      && (Has(raw, Thunderstorm) <==> code >= 95)
      && (Has(raw, HeavyRain) <==> HeavyRainRisk(code, h, idx))
      && (Has(raw, HighWind) <==> windMph >= 35.0)
      && (Has(raw, GustyWinds) <==> 25.0 <= windMph < 35.0)
      && (Has(raw, SnowVisibility) <==> IsAlertSnow(code))
      && (Has(raw, FallingPressure) <==> PressureDropping(h, idx))
  {
    var t, r, w, s, p := ThunderRule(code), RainRule(code, h, idx), WindRule(windMph), SnowRule(code), PressureRule(h, idx);
    forall k: Kind ensures Has(t + r + w + s + p, k) <==> Has(t, k) || Has(r, k) || Has(w, k) || Has(s, k) || Has(p, k) {
      HasAppend(t, r, k);
      HasAppend(t + r, w, k);
      HasAppend(t + r + w, s, k);
      HasAppend(t + r + w + s, p, k);
    }
    assert t != [] ==> t[0] in t;
    assert r != [] ==> r[0] in r;
    assert s != [] ==> s[0] in s;
    assert p != [] ==> p[0] in p;
  }

  lemma HasAppend(a: seq<Alert>, b: seq<Alert>, k: Kind)
    ensures Has(a + b, k) <==> Has(a, k) || Has(b, k)
  {
    if Has(a + b, k) {
      var x :| x in a + b && x.kind == k;
      assert x in a || x in b;
    }
    if Has(a, k) {
      var x :| x in a && x.kind == k;
      assert x in a + b;
    }
    if Has(b, k) {
      var x :| x in b && x.kind == k;
      assert x in a + b;
    }
  }

  lemma SameMultisetSameKinds(a: seq<Alert>, b: seq<Alert>)
    requires multiset(a) == multiset(b)
    ensures forall k :: Has(a, k) <==> Has(b, k)
  {
    forall x ensures x in a <==> x in b {
      assert x in a <==> x in multiset(a);
      assert x in b <==> x in multiset(b);
    }
  }

  /** The alerts are pushed in rank order already, so the sort changes nothing. */
  lemma RawAlertsAlreadySorted(code: int, windMph: real, h: Hourly, idx: nat)
    ensures BuildAlerts(code, windMph, h, idx) == RawAlerts(code, windMph, h, idx)
  {
    RawAlertsSorted(code, windMph, h, idx);
    SortedIsGrouped(RawAlerts(code, windMph, h, idx));
  }

  lemma RawAlertsSorted(code: int, windMph: real, h: Hourly, idx: nat)
    ensures SortedByRank(RawAlerts(code, windMph, h, idx))
  {
    RuleOrderSorted(ThunderRule(code), RainRule(code, h, idx), WindRule(windMph), SnowRule(code), PressureRule(h, idx));
  }

  /** Lists of at most one alert each, pushed in the order of the rules, are
      ordered by rank. */
  lemma RuleOrderSorted(t: seq<Alert>, r: seq<Alert>, w: seq<Alert>, s: seq<Alert>, p: seq<Alert>)
    requires |t| <= 1 && |r| <= 1 && |w| <= 1 && |s| <= 1 && |p| <= 1
    requires forall a :: a in t ==> a.kind == Thunderstorm
    requires forall a :: a in r ==> a.kind == HeavyRain
    requires forall a :: a in w ==> a.kind in {HighWind, GustyWinds}
    requires forall a :: a in s ==> a.kind == SnowVisibility
    requires forall a :: a in p ==> a.kind == FallingPressure
    ensures SortedByRank(t + r + w + s + p)
  {
    SortedAppend(t, r, 0);
    assert forall x: Alert :: x in t + r ==> x.Rank() <= 1;
    SortedAppend(t + r, w, 1);
    SortedAppend(t + r + w, s, 2);
    SortedAppend(t + r + w + s, p, 2);
  }

  lemma SortedAppend(a: seq<Alert>, b: seq<Alert>, m: nat)
    requires SortedByRank(a) && SortedByRank(b)
    requires forall x :: x in a ==> x.Rank() <= m
    requires forall y :: y in b ==> y.Rank() >= m
    ensures SortedByRank(a + b)
  {
    forall i, j | 0 <= i < j < |a + b| ensures (a + b)[i].Rank() <= (a + b)[j].Rank() {
      if j < |a| {
      } else if i >= |a| {
        assert (a + b)[i] == b[i - |a|] && (a + b)[j] == b[j - |a|];
      } else {
        assert (a + b)[i] == a[i] && a[i] in a;
        assert (a + b)[j] == b[j - |a|] && b[j - |a|] in b;
      }
    }
  }

  /** The current probability takes part in the maximum, so a current
      probability of at least 85 already meets the look-ahead test. */
  lemma FuturePopMaxCoversNow(h: Hourly, idx: nat)
    ensures PopNow(h, idx).Some? ==> FuturePopMax(h, idx).Some? && FuturePopMax(h, idx).value >= PopNow(h, idx).value
    ensures PopNow(h, idx).None? ==> FuturePopMax(h, idx).None?
  {
  }
}

=== FILE: app.dfy ===
/** The page glue of wx-app.js that is pure logic: the icon and background
    table of `getWeatherInfo`, and the FX mode and intensity `render` hands
    to the ambient-FX engine. */
module App {
  import opened Wrappers
  import opened Numeric
  import opened Text
  import FxState
  import WeatherCodes

  /** A two-stop background gradient. */
  datatype Background = Background(top: string, bottom: string)

  const BgClearDay := Background("#3b82f6", "#60a5fa")
  const BgClearNight := Background("#0f172a", "#1e293b")
  const BgCloudyDay := Background("#64748b", "#94a3b8")
  const BgCloudyNight := Background("#1e293b", "#334155")
  const BgRain := Background("#334155", "#475569")
  const BgStorm := Background("#0f172a", "#312e81")

  const IconBase := "icons/"

  /** A row of the code table. */
  datatype Entry = Entry(desc: string, file: string, bg: Background)

  /** The result of `getWeatherInfo`: the table row plus `path`. */
  datatype Info = Info(desc: string, file: string, bg: Background, path: string)

  /** The codes the table lists. */
  const TableCodes: set<int> := {0, 1, 2, 3, 45, 48, 51, 53, 55, 61, 63, 65, 71, 73, 75,
                                 80, 81, 82, 85, 86, 95, 96, 99}

  /** `map[code]`, with `isDay` already fixed. */
  function TableEntry(code: int, isDay: bool): (r: Option<Entry>)
    ensures r.Some? <==> code in TableCodes
    ensures r.Some? ==> r.value.desc != "Unknown" && r.value.file in WeatherCodes.IconFiles
  {
    var clearBg := if isDay then BgClearDay else BgClearNight;
    var partly := if isDay then "cloudy-day-1.svg" else "cloudy-night-1.svg";
    match code
    case 0 => Some(Entry("Clear Sky", if isDay then "day.svg" else "night.svg", clearBg))
    case 1 => Some(Entry("Mainly Clear", partly, clearBg))
    case 2 => Some(Entry("Partly Cloudy", partly, clearBg))
    case 3 => Some(Entry("Overcast", "cloudy.svg", if isDay then BgCloudyDay else BgCloudyNight))
    case 45 => Some(Entry("Fog", "cloudy.svg", BgCloudyDay))
    case 48 => Some(Entry("Rime Fog", "cloudy.svg", BgCloudyDay))
    case 51 => Some(Entry("Drizzle", "rainy-1.svg", BgRain))
    case 53 => Some(Entry("Drizzle", "rainy-1.svg", BgRain))
    case 55 => Some(Entry("Drizzle", "rainy-1.svg", BgRain))
    case 61 => Some(Entry("Rain", "rainy-4.svg", BgRain))
    case 63 => Some(Entry("Rain", "rainy-4.svg", BgRain))
    case 65 => Some(Entry("Heavy Rain", "rainy-4.svg", BgRain))
    case 71 => Some(Entry("Snow", "snowy-4.svg", BgRain))
    case 73 => Some(Entry("Snow", "snowy-4.svg", BgRain))
    case 75 => Some(Entry("Heavy Snow", "snowy-6.svg", BgRain))
    case 80 => Some(Entry("Showers", "rainy-6.svg", BgRain))
    case 81 => Some(Entry("Showers", "rainy-6.svg", BgRain))
    case 82 => Some(Entry("Showers", "rainy-6.svg", BgRain))
    case 85 => Some(Entry("Snow Showers", "snowy-6.svg", BgRain))
    case 86 => Some(Entry("Snow Showers", "snowy-6.svg", BgRain))
    case 95 => Some(Entry("Thunderstorm", "thunder.svg", BgStorm))
    case 96 => Some(Entry("Thunderstorm", "thunder.svg", BgStorm))
    case 99 => Some(Entry("Thunderstorm", "thunder.svg", BgStorm))
    case _ => None
  }

  /** `getWeatherInfo(code, isDay)`: the table row, or the "Unknown" row
      for codes the table does not list, with `path = "icons/" + file`. */
  function GetWeatherInfo(code: int, isDay: bool): (r: Info)
    ensures StartsWith(r.path, IconBase) && r.path[|IconBase|..] == r.file
    ensures r.file in WeatherCodes.IconFiles
    ensures r.desc == "Unknown" <==> code !in TableCodes
    ensures code !in TableCodes ==> r.file == "weather.svg" && r.bg == BgCloudyDay
    ensures code == 0 ==> r.file == (if isDay then "day.svg" else "night.svg")
    ensures code == 0 ==> r.bg == (if isDay then BgClearDay else BgClearNight)
  {
    var e := TableEntry(code, isDay).GetOr(Entry("Unknown", "weather.svg", BgCloudyDay));
    var path := IconBase + e.file;
    assert path[..|IconBase|] == IconBase && path[|IconBase|..] == e.file;
    Info(e.desc, e.file, e.bg, path)
  }

  /** Day and night differ only for the clear, partly cloudy and overcast
      codes 0 to 3. */
  lemma DayNightOnlyForCodesUpToThree(code: int)
    ensures !(0 <= code <= 3) ==> GetWeatherInfo(code, true) == GetWeatherInfo(code, false)
    ensures 0 <= code <= 3 ==> GetWeatherInfo(code, true) != GetWeatherInfo(code, false)
  {
  }

  /** Every code of the table is a code the label helper knows, but the
      table is sparser: freezing drizzle (56) has a label yet no table row. */
  lemma TableCodesAreKnownCodes(code: int)
    ensures code in TableCodes ==> WeatherCodes.IsKnownCode(code)
    ensures WeatherCodes.IsKnownCode(56) && GetWeatherInfo(56, true).desc == "Unknown"
  {
  }

  /** The table and `iconFromWeatherCode` pick the same icon file for every
      listed code except heavy snow (75), which the table draws with the
      heavier snow icon. */
  lemma TableAgreesWithIconHelper(code: int, isDay: bool)
    requires code in TableCodes
    ensures code != 75 <==> GetWeatherInfo(code, isDay).file == WeatherCodes.IconChoice(code, isDay).0
  {
  }

  /** The FX mode classification in `render`: fog beats snow, snow beats
      rain (drizzle, rain, showers and thunderstorms), anything else is dust. */
  function FxModeForCode(code: int): (m: FxState.Mode)
    ensures m == FxState.Fog <==> 45 <= code <= 48
    ensures m == FxState.Snow <==> (71 <= code <= 77) || (85 <= code <= 86)
    ensures m == FxState.Rain <==> (51 <= code <= 67) || (80 <= code <= 82) || code >= 95
  {
    var isFog := 45 <= code <= 48;
    var isSnow := (71 <= code <= 77) || (85 <= code <= 86);
    var isRain := (51 <= code <= 67) || (80 <= code <= 82) || code >= 95;
    if isFog then FxState.Fog else if isSnow then FxState.Snow else if isRain then FxState.Rain else FxState.Dust
  }

  /** The weather families of the label helper land in the FX modes one
      would expect: every rainy sky mood gives the rain effect, and fog,
      snow and snow showers give theirs. */
  lemma FxModeAgreesWithCodeFamilies(code: int, isDay: bool)
    ensures WeatherCodes.IsFog(code) <==> FxModeForCode(code) == FxState.Fog
    ensures WeatherCodes.IsSnow(code) || WeatherCodes.IsSnowShowers(code) <==> FxModeForCode(code) == FxState.Snow
    ensures WeatherCodes.SkyMood(code, isDay) == WeatherCodes.RainMood ==> FxModeForCode(code) == FxState.Rain
    ensures !WeatherCodes.IsKnownCode(code) && !(58 <= code <= 60) && !(68 <= code <= 70) ==> FxModeForCode(code) == FxState.Dust
  {
  }

  /** The update `render` passes to `fx.set`: the mode, `rawWindSpeed || 0`
      and `precipProb / 100` clamped to [0, 1], where `precipProb` is
      `hourly.pop[idx] ?? 0`. */
  function FxRequest(code: int, precipProb: Option<real>, rawWindSpeed: real): (u: FxState.Update)
    ensures u.mode == Some(FxModeForCode(code)) && u.windMph == Some(rawWindSpeed)
    ensures u.opacity.None?
    ensures u.intensity.Some? && 0.0 <= u.intensity.value <= 1.0
    ensures precipProb.None? ==> u.intensity == Some(0.0)
    ensures precipProb.Some? && 0.0 <= precipProb.value <= 100.0 ==> u.intensity.value * 100.0 == precipProb.value
  {
    var p := precipProb.GetOr(0.0);
    FxState.Update(Some(FxModeForCode(code)), Some(Max(0.0, Min(1.0, p / 100.0))), Some(rawWindSpeed), None)
  }

  /** After `render`, the engine runs in the classified mode with the
      precipitation probability as its intensity, and keeps its opacity. */
  lemma RenderSetsFx(s: FxState.State, code: int, precipProb: real, rawWindSpeed: real)
    requires 0.0 <= precipProb <= 100.0
    ensures var t := FxState.Set(s, FxRequest(code, Some(precipProb), rawWindSpeed));
      t.mode == FxModeForCode(code) && t.intensity * 100.0 == precipProb
      && t.windMph == rawWindSpeed && t.opacity == s.opacity
  {
  }
}

=== FILE: barometer.dfy ===
/** The barometer gauge and the tween animator of wx-app.js: pressure clamped
    to [970, 1040] hPa becomes a ratio that drives the needle angle, the arc's
    dash offset and a hue; a trend compares each sample with the previous raw
    sample; a cubic ease-out tween moves the displayed value to each new
    target. Timestamps are parameters and frame scheduling is a set of
    pending frame ids. */
module Barometer {
  import opened Wrappers
  import opened Numeric

  const MinHpa: real := 970.0
  const MaxHpa: real := 1040.0
  const MinDeg: real := -135.0
  const MaxDeg: real := 45.0
  const ArcLength: real := 212.0

  /** `(clamp(p) - 970) / (1040 - 970)`. */
  function PressureRatio(pressure: real): (ratio: real)
    ensures 0.0 <= ratio <= 1.0
    ensures MinHpa <= pressure <= MaxHpa ==> MinHpa + ratio * (MaxHpa - MinHpa) == pressure
    ensures pressure <= MinHpa ==> ratio == 0.0
    ensures pressure >= MaxHpa ==> ratio == 1.0
  {
    var clamped := Clamp(MinHpa, MaxHpa, pressure);
    (clamped - MinHpa) / (MaxHpa - MinHpa)
  }

  lemma PressureRatioExamples()
    ensures PressureRatio(970.0) == 0.0
    ensures PressureRatio(1005.0) == 0.5
    ensures PressureRatio(1040.0) == 1.0
    ensures PressureRatio(900.0) == 0.0 && PressureRatio(1100.0) == 1.0
  {
  }

  lemma {:induction false} PressureRatioMonotone(p: real, q: real)
    requires p <= q
    ensures PressureRatio(p) <= PressureRatio(q)
  {
    ClampMonotone(MinHpa, MaxHpa, p, q);
  }

  /** What `updateBarometerInstant(v)` writes for one displayed value. */
  datatype Needle = Needle(degrees: real, dashOffset: real, readout: int)

  /** `updateBarometerInstant(pressure)`: needle angle, arc dash offset and the
      rounded hPa readout. */
  function UpdateBarometerInstant(pressure: real): (n: Needle)
    ensures MinDeg <= n.degrees <= MaxDeg
    ensures 0.0 <= n.dashOffset <= ArcLength
    ensures n.dashOffset * (MaxDeg - MinDeg) == (MaxDeg - n.degrees) * ArcLength
    ensures MinHpa <= pressure <= MaxHpa ==>
      MinHpa + (n.degrees - MinDeg) / (MaxDeg - MinDeg) * (MaxHpa - MinHpa) == pressure
    ensures pressure - 0.5 < n.readout as real <= pressure + 0.5
  {
    var ratio := PressureRatio(pressure);
    var deg := MinDeg + ratio * (MaxDeg - MinDeg);
    var offset := (1.0 - ratio) * ArcLength;
    Needle(deg, offset, JsRound(pressure))
  }

  /** A higher pressure turns the needle further clockwise and fills more arc. */
  lemma {:induction false} NeedleMonotone(p: real, q: real)
    requires p <= q
    ensures UpdateBarometerInstant(p).degrees <= UpdateBarometerInstant(q).degrees
    ensures UpdateBarometerInstant(p).dashOffset >= UpdateBarometerInstant(q).dashOffset
  {
    PressureRatioMonotone(p, q);
  }

  lemma NeedleBetween(lo: real, v: real, hi: real)
    ensures lo <= v <= hi ==>
      UpdateBarometerInstant(lo).degrees <= UpdateBarometerInstant(v).degrees <= UpdateBarometerInstant(hi).degrees
  {
    if lo <= v <= hi {
      NeedleMonotone(lo, v);
      NeedleMonotone(v, hi);
    }
  }

  lemma RoundBetween(lo: real, v: real, hi: real)
    ensures lo <= v <= hi ==> JsRound(lo) <= JsRound(v) <= JsRound(hi)
  {
    if lo <= v <= hi {
      JsRoundMonotone(lo, v);
      JsRoundMonotone(v, hi);
    }
  }

  lemma NeedleEndpoints()
    ensures UpdateBarometerInstant(970.0).degrees == -135.0
    ensures UpdateBarometerInstant(1005.0).degrees == -45.0
    ensures UpdateBarometerInstant(1040.0).degrees == 45.0
    ensures UpdateBarometerInstant(1040.0).dashOffset == 0.0
  {
  }

  /** Pressure tendency between two raw samples. */
  datatype Trend = Stable | Rising | Falling {
    /** The text shown in the trend element. */
    function Text(): string {
      match this
      case Stable => "Stable"
      case Rising => "Rising"
      case Falling => "Falling"
    }
  }

  /** The trend rule: stable without a previous sample or when the difference
      is under 1 hPa, otherwise by the sign of the difference. */
  function ClassifyTrend(last: Option<real>, pressure: real): (t: Trend)
    ensures last.None? ==> t == Stable
    ensures last.Some? ==>
      && (t == Stable <==> -1.0 < pressure - last.value < 1.0)
      && (t == Rising <==> pressure - last.value >= 1.0)
      && (t == Falling <==> pressure - last.value <= -1.0)
  {
    match last
    case None => Stable
    case Some(prev) =>
      var diff := pressure - prev;
      if (if diff < 0.0 then -diff else diff) < 1.0 then Stable
      else if diff > 0.0 then Rising
      else Falling
  }

  /** Swapping the two samples swaps rising and falling. */
  lemma TrendReverses(a: real, b: real)
    ensures ClassifyTrend(Some(a), b) == Rising <==> ClassifyTrend(Some(b), a) == Falling
    ensures ClassifyTrend(Some(a), b) == Stable <==> ClassifyTrend(Some(b), a) == Stable
  {
  }

  lemma TrendExamples()
    ensures ClassifyTrend(Some(1010.0), 1010.5) == Stable
    ensures ClassifyTrend(Some(1010.0), 1015.0) == Rising
    ensures ClassifyTrend(Some(1010.0), 1002.0) == Falling
    ensures ClassifyTrend(None, 1002.0) == Stable
  {
  }

  /** `setPressureVisuals(pressure, trend)`: the ratio and hue custom
      properties and the trend class set on the page. */
  datatype Visuals = Visuals(ratio: real, hue: int, trend: Trend)

  function SetPressureVisuals(pressure: real, trend: Trend): (v: Visuals)
    ensures v.ratio == PressureRatio(pressure)
    ensures 25 <= v.hue <= 210
    ensures 0.0 <= v.ratio <= 1.0 && v.trend == trend
    ensures 25.0 + v.ratio * 185.0 - 0.5 < v.hue as real <= 25.0 + v.ratio * 185.0 + 0.5
  {
    var ratio := PressureRatio(pressure);
    var hue := JsRound(25.0 + ratio * (210.0 - 25.0));
    JsRoundMonotone(25.0, 25.0 + ratio * (210.0 - 25.0));
    JsRoundMonotone(25.0 + ratio * (210.0 - 25.0), 210.0);
    JsRoundOfInt(25);
    JsRoundOfInt(210);
    Visuals(ratio, hue, trend)
  }

  /** The hue follows the raw sample: a higher pressure never gives a lower
      hue, and the ends of the scale give the ends of the hue range. */
  lemma HueFollowsPressure(a: real, b: real, trend: Trend)
    requires a <= b
    ensures SetPressureVisuals(a, trend).hue <= SetPressureVisuals(b, trend).hue
    ensures a <= MinHpa ==> SetPressureVisuals(a, trend).hue == 25
    ensures b >= MaxHpa ==> SetPressureVisuals(b, trend).hue == 210
  {
    PressureRatioMonotone(a, b);
    var ra, rb := PressureRatio(a), PressureRatio(b);
    JsRoundMonotone(25.0 + ra * (210.0 - 25.0), 25.0 + rb * (210.0 - 25.0));
    JsRoundOfInt(25);
    JsRoundOfInt(210);
  }

  /** The cubic ease-out `1 - (1 - p)^3`. */
  function Ease(p: real): (e: real)
    ensures 0.0 <= p <= 1.0 ==> 0.0 <= e <= 1.0
  {
    var q := 1.0 - p;
    CubeBounds(q);
    1.0 - q * q * q
  }

  lemma CubeBounds(q: real)
    ensures 0.0 <= q <= 1.0 ==> 0.0 <= q * q * q <= 1.0
  {
    if 0.0 <= q <= 1.0 {
      assert 0.0 <= q * q <= q;
      assert q * q * q <= q * q;
    }
  }

  lemma EaseEndpoints()
    ensures Ease(0.0) == 0.0
    ensures Ease(1.0) == 1.0
  {
  }

  /** The ease never moves backwards on [0, 1]. */
  lemma {:induction false} EaseMonotone(p: real, q: real)
    requires 0.0 <= p <= q <= 1.0
    ensures Ease(p) <= Ease(q)
  {
    var a, b := 1.0 - q, 1.0 - p;
    assert 0.0 <= a <= b;
    CubeMonotone(a, b);
  }

  lemma CubeMonotone(a: real, b: real)
    requires 0.0 <= a <= b
    ensures a * a * a <= b * b * b
  {
    assert a * a <= b * b by {
      assert a * a <= a * b;
      assert a * b <= b * b;
    }
    assert a * a * a <= b * b * a;
    assert b * b * a <= b * b * b;
  }

  /** `from + (to - from) * e`. */
  function Interpolate(from: real, to: real, e: real): (v: real)
    ensures 0.0 <= e <= 1.0 ==> Min(from, to) <= v <= Max(from, to)
    ensures e == 1.0 ==> v == to
    ensures e == 0.0 ==> v == from
  {
    from + Part(to - from, e)
  }

  /** `d * e`, with the bounds a weight in [0, 1] keeps it in. */
  function Part(d: real, e: real): (r: real)
    ensures 0.0 <= e <= 1.0 && d >= 0.0 ==> 0.0 <= r <= d
    ensures 0.0 <= e <= 1.0 && d <= 0.0 ==> d <= r <= 0.0
    ensures e == 1.0 ==> r == d
    ensures e == 0.0 ==> r == 0.0
  {
    var r := d * e;
    PartBounds(d, e, r);
    r
  }

  lemma PartBounds(d: real, e: real, r: real)
    requires r == d * e
    ensures 0.0 <= e <= 1.0 && d >= 0.0 ==> 0.0 <= r <= d
    ensures 0.0 <= e <= 1.0 && d <= 0.0 ==> d <= r <= 0.0
    ensures e == 1.0 ==> r == d
    ensures e == 0.0 ==> r == 0.0
  {
    if 0.0 <= e <= 1.0 {
      var rest := d * (1.0 - e);
      assert r + rest == d;
      if d >= 0.0 {
        ProductNonNeg(d, e);
        ProductNonNeg(d, 1.0 - e);
      } else {
        ProductNonNeg(-d, e);
        ProductNonNeg(-d, 1.0 - e);
        assert -r == (-d) * e;
        assert -rest == (-d) * (1.0 - e);
      }
    }
  }

  lemma ProductNonNeg(a: real, b: real)
    requires a >= 0.0 && b >= 0.0
    ensures a * b >= 0.0
  {
  }

  /** Elapsed time over the duration reaches 1 exactly when the duration has passed. */
  lemma ProgressRatio(elapsed: real, dur: real)
    requires dur > 0.0
    ensures elapsed / dur >= 1.0 <==> elapsed >= dur
    ensures elapsed >= 0.0 ==> elapsed / dur >= 0.0
  {
    assert (elapsed / dur) * dur == elapsed;
  }

  /** One animation frame: progress `min(1, (now - start) / dur)`, the eased
      value, and whether another frame is requested (only while progress < 1). */
  datatype Frame = Frame(progress: real, value: real, again: bool)

  function TweenFrame(from: real, to: real, start: real, dur: real, now: real): (f: Frame)
    requires dur > 0.0
    ensures f.progress <= 1.0
    ensures f.again <==> now - start < dur
    ensures !f.again ==> f.value == to
    ensures now >= start ==> Min(from, to) <= f.value <= Max(from, to)
  {
    var p := Min(1.0, (now - start) / dur);
    ProgressRatio(now - start, dur);
    Frame(p, Interpolate(from, to, Ease(p)), p < 1.0)
  }

  /** The host's animation-frame queue: pending callback ids and the next id. */
  datatype Frames = Frames(pending: set<nat>, nextId: nat)

  predicate FramesValid(fs: Frames) {
    forall id :: id in fs.pending ==> id < fs.nextId
  }

  /** Frame ids are handed out in increasing order, so every id the gauge
      holds is below the next one; and a fired frame is no longer pending, so
      the only frame that can be pending is the one the gauge holds. */
  predicate GaugeValid(g: Gauge) {
    FramesValid(g.frames) && g.anim.raf < g.frames.nextId && g.frames.pending <= {g.anim.raf}
  }

  /** `pressureAnim`: the tween of the barometer readout. */
  datatype PressureAnim = PressureAnim(raf: nat, from: Option<real>, to: Option<real>, start: real)

  const PressureDurationMs: real := 900.0

  /** The state `updateBarometer` reads and writes: the last raw sample, the
      tween, and the frame queue. */
  datatype Gauge = Gauge(lastPressure: Option<real>, anim: PressureAnim, frames: Frames)

  const InitialGauge := Gauge(None, PressureAnim(0, None, None, 0.0), Frames({}, 1))

  /** What one call of `updateBarometer` shows at once. */
  datatype Submitted = Submitted(gauge: Gauge, trend: Trend, visuals: Visuals)

  /** `updateBarometer(pressure)` at time `now`: classify the trend against the
      last raw sample and replace it, retarget the tween from the previous
      target, cancel the pending frame and request a new one. */
  function UpdateBarometer(g: Gauge, pressure: real, now: real): (r: Submitted)
    requires GaugeValid(g)
    ensures r.trend == ClassifyTrend(g.lastPressure, pressure)
    ensures r.visuals.ratio == PressureRatio(pressure) && r.visuals.trend == r.trend
    ensures r.gauge.lastPressure == Some(pressure)
    ensures r.gauge.anim.to == Some(pressure) && r.gauge.anim.start == now
    ensures g.anim.to.Some? ==> r.gauge.anim.from == g.anim.to
    ensures g.anim.to.None? ==> r.gauge.anim.from == Some(pressure)
    ensures g.anim.raf !in r.gauge.frames.pending
    ensures r.gauge.anim.raf !in g.frames.pending && r.gauge.anim.raf in r.gauge.frames.pending
    ensures r.gauge.frames.pending == g.frames.pending - {g.anim.raf} + {r.gauge.anim.raf}
    ensures r.gauge.frames.pending == {r.gauge.anim.raf}
    ensures GaugeValid(r.gauge)
  {
    var trend := ClassifyTrend(g.lastPressure, pressure);
    var visuals := SetPressureVisuals(pressure, trend);
    var origin := g.anim.to.GetOr(pressure);
    var cancelled := g.frames.pending - {g.anim.raf};
    var id := g.frames.nextId;
    var frames := Frames(cancelled + {id}, id + 1);
    Submitted(Gauge(Some(pressure), PressureAnim(id, Some(origin), Some(pressure), now), frames), trend, visuals)
  }

  /** The barometer's frame callback `step(now)`: the value shown, and the
      frame queue after the running frame has fired and the next frame has
      been requested while progress is below 1. */
  datatype Stepped = Stepped(gauge: Gauge, needle: Needle, again: bool)

  function PressureStep(g: Gauge, now: real): (r: Stepped)
    requires g.anim.from.Some? && g.anim.to.Some?
    requires GaugeValid(g)
    ensures r.again <==> now - g.anim.start < PressureDurationMs
    ensures !r.again ==> r.needle == UpdateBarometerInstant(g.anim.to.value)
    ensures r.gauge.lastPressure == g.lastPressure
    ensures r.gauge.anim == g.anim.(raf := r.gauge.anim.raf)
    ensures g.anim.raf !in r.gauge.frames.pending
    ensures r.gauge.frames.pending == if r.again then {r.gauge.anim.raf} else {}
    ensures now >= g.anim.start ==>
      UpdateBarometerInstant(Min(g.anim.from.value, g.anim.to.value)).degrees <= r.needle.degrees
        <= UpdateBarometerInstant(Max(g.anim.from.value, g.anim.to.value)).degrees
    ensures GaugeValid(r.gauge)
  {
    var f := TweenFrame(g.anim.from.value, g.anim.to.value, g.anim.start, PressureDurationMs, now);
    var needle := UpdateBarometerInstant(f.value);
    NeedleBetween(Min(g.anim.from.value, g.anim.to.value), f.value, Max(g.anim.from.value, g.anim.to.value));
    var fired := g.frames.pending - {g.anim.raf};
    if f.again then
      var id := g.frames.nextId;
      Stepped(g.(anim := g.anim.(raf := id), frames := Frames(fired + {id}, id + 1)), needle, true)
    else Stepped(g.(frames := g.frames.(pending := fired)), needle, false)
  }

  /** Two tweens never overlap: a new sample in the middle of a tween cancels
      the frame the running tween asked for, so only the new tween's frame is
      pending, and after its last frame nothing is. */
  lemma TweensNeverOverlap()
    ensures var u1 := UpdateBarometer(InitialGauge, 1000.0, 0.0).gauge;
      var s := PressureStep(u1, 16.0);
      var u2 := UpdateBarometer(s.gauge, 1010.0, 20.0).gauge;
      && u1.frames.pending == {1}
      && s.again && s.gauge.frames.pending == {2}
      && u2.frames.pending == {3}
      && PressureStep(u2, 20.0 + PressureDurationMs).gauge.frames.pending == {}
  {
    var u1 := UpdateBarometer(InitialGauge, 1000.0, 0.0).gauge;
    assert u1.anim.raf == 1 && u1.frames.nextId == 2;
    var s := PressureStep(u1, 16.0);
    assert s.again;
    assert s.gauge.anim.raf == 2;
    var u2 := UpdateBarometer(s.gauge, 1010.0, 20.0).gauge;
    assert u2.anim.raf == 3;
    assert !PressureStep(u2, 20.0 + PressureDurationMs).again;
  }

  /** The tween restarts from the previous target, not from the value on
      screen: half-way through 1000 -> 1010 the gauge shows 1008.75, and a new
      sample makes it jump to 1010 at once. */
  lemma RetargetStartsFromPreviousTarget()
    ensures var g := Gauge(Some(1010.0), PressureAnim(1, Some(1000.0), Some(1010.0), 0.0), Frames({1}, 2));
      && PressureStep(g, 450.0).needle.readout == 1009
      && TweenFrame(1000.0, 1010.0, 0.0, PressureDurationMs, 450.0).value == 1008.75
      && UpdateBarometer(g, 1020.0, 450.0).gauge.anim.from == Some(1010.0)
  {
    var f := TweenFrame(1000.0, 1010.0, 0.0, PressureDurationMs, 450.0);
    assert f.progress == 0.5;
    assert Ease(0.5) == 0.875;
  }

  const NumberDurationMs: real := 520.0

  /** `animateNumber(node, to)`: the stored previous target `dataset.v`
      (absent before the first call) is the origin, and `to` is stored. */
  datatype NumberAnim = NumberAnim(from: real, to: real, start: real)

  function AnimateNumber(stored: Option<real>, to: real, now: real): (r: (NumberAnim, Option<real>))
    ensures r.1 == Some(to)
    ensures r.0.to == to && r.0.start == now
    ensures stored.Some? ==> r.0.from == stored.value
    ensures stored.None? ==> r.0.from == to
  {
    (NumberAnim(stored.GetOr(to), to, now), Some(to))
  }

  /** The text of one `tick(now)` of `animateNumber`: the rounded eased value,
      the suffix, and whether another tick follows. */
  function NumberTick(a: NumberAnim, suffix: string, now: real): (r: (int, string, bool))
    ensures r.2 <==> now - a.start < NumberDurationMs
    ensures !r.2 ==> a.to - 0.5 < r.0 as real <= a.to + 0.5
    ensures now >= a.start ==> JsRound(Min(a.from, a.to)) <= r.0 <= JsRound(Max(a.from, a.to))
    ensures r.1 == suffix
  {
    var f := TweenFrame(a.from, a.to, a.start, NumberDurationMs, now);
    RoundBetween(Min(a.from, a.to), f.value, Max(a.from, a.to));
    (JsRound(f.value), suffix, f.again)
  }
}

=== FILE: core_helpers.dfy ===
/** The unit, time and insight helpers of wx-core.js: guarded temperature and
    wind conversion, the moon-phase fraction, the "current hour" lookup and the
    scan for the next change of weather code. `hourIndexNow` and
    `nextChangeInsight` are identical in icons/wx-core.js. */
module CoreHelpers {
  import opened Wrappers
  import opened Numeric
  import opened Text

  /** A JavaScript value handed to the guarded conversions: a finite number,
      `NaN`, or something that is not a number at all (`undefined`, a string). */
  datatype JsInput = Num(v: real) | NaN | NotNumber

  /** What `convertTemp` returns: a rounded number or the string "--". */
  datatype TempReading = NoReading | Reading(value: int)

  /** `cToF`. */
  function CToF(c: real): (f: real)
    ensures (f - 32.0) * 5.0 == c * 9.0
  {
    (c * 9.0) / 5.0 + 32.0
  }

  /** True when `n` is what `Math.round` gives for `x`: the nearest integer,
      ties going up. Stated without `floor`, as a pair of inequalities. */
  predicate RoundsTo(x: real, n: int) {
    x - 0.5 < n as real <= x + 0.5
  }

  lemma RoundsToUnique(x: real, n: int, m: int)
    requires RoundsTo(x, n) && RoundsTo(x, m)
    ensures n == m
  {
  }

  /** `convertTemp(c, unit)` of wx-core.js: "--" for non-numbers and NaN,
      Fahrenheit for the unit "F" and rounded Celsius for anything else. */
  function ConvertTemp(c: JsInput, unit: string): (r: TempReading)
    ensures r.Reading? <==> c.Num?
    ensures c.Num? && unit == "F" ==> RoundsTo(c.v * 9.0 / 5.0 + 32.0, r.value)
    ensures c.Num? && unit != "F" ==> RoundsTo(c.v, r.value)
  {
    match c
    case Num(v) => Reading(if unit == "F" then JsRound(CToF(v)) else JsRound(v))
    case _ => NoReading
  }

  lemma ConvertTempExamples()
    ensures ConvertTemp(Num(0.0), "F") == Reading(32)
    ensures ConvertTemp(Num(100.0), "F") == Reading(212)
    ensures ConvertTemp(Num(-40.0), "F") == Reading(-40)
    ensures ConvertTemp(Num(21.5), "C") == Reading(22)
    ensures ConvertTemp(NaN, "F") == NoReading
  {
  }

  /** Warmer input never reads colder, in either unit. */
  lemma ConvertTempMonotone(a: real, b: real, unit: string)
    requires a <= b
    ensures ConvertTemp(Num(a), unit).value <= ConvertTemp(Num(b), unit).value
  {
    if unit == "F" {
      JsRoundMonotone(CToF(a), CToF(b));
    } else {
      JsRoundMonotone(a, b);
    }
  }

  const KmPerMile: real := 1.60934

  /** `windText(mph, unit)` of wx-core.js. */
  function WindText(mph: JsInput, unit: string): (r: string)
    ensures !mph.Num? ==> r == "--"
    ensures mph.Num? && unit == "F" ==>
      EndsWith(r, " mph") && exists n :: ParseInt(r[..|r| - 4]) == Some(n) && RoundsTo(mph.v, n)
    ensures mph.Num? && unit != "F" ==>
      EndsWith(r, " km/h") && exists n :: ParseInt(r[..|r| - 5]) == Some(n) && RoundsTo(mph.v * KmPerMile, n)
  {
    match mph
    case Num(v) =>
      if unit == "F" then
        var n := JsRound(v);
        var s := IntToString(n) + " mph";
        assert s[..|s| - 4] == IntToString(n);
        IntRoundTrip(n);
        s
      else
        var n := JsRound(v * KmPerMile);
        var s := IntToString(n) + " km/h";
        assert s[..|s| - 5] == IntToString(n);
        IntRoundTrip(n);
        s
    case _ => "--"
  }

  /** `Date.UTC(2000, 0, 6, 18, 14, 0)`, the reference new moon, in milliseconds. */
  const ReferenceNewMoonMs: int := 947182440000
  const SynodicDays: real := 29.530588853
  const MsPerDay: real := 86400000.0

  /** The fractional part of `x`, defined through `floor`. */
  function FractionalPart(x: real): real {
    x - Floor(x) as real
  }

  /** `moonPhaseFraction(date)` for a date given as milliseconds since the epoch:
      the truncating remainder by 1, shifted up by one when negative. */
  function MoonPhaseFraction(timeMs: int): (phase: real)
    ensures 0.0 <= phase < 1.0
    ensures phase == FractionalPart((timeMs - ReferenceNewMoonMs) as real / MsPerDay / SynodicDays)
  {
    var days := (timeMs - ReferenceNewMoonMs) as real / MsPerDay;
    var cycles := days / SynodicDays;
    var rem := JsRem1(cycles);
    RemainderShift(cycles);
    if rem < 0.0 then rem + 1.0 else rem
  }

  lemma RemainderShift(x: real)
    ensures JsRem1(x) < 0.0 ==> JsRem1(x) + 1.0 == FractionalPart(x)
    ensures JsRem1(x) >= 0.0 ==> JsRem1(x) == FractionalPart(x)
  {
    var t := Trunc(x);
    if x >= 0.0 {
      assert t == Floor(x);
    } else if JsRem1(x) < 0.0 {
      assert (t - 1) as real <= x < t as real;
      assert Floor(x) == t - 1;
    } else {
      assert Floor(x) == t;
    }
  }

  /** `hourIndexNow(times, tz)` with the clock-derived "YYYY-MM-DDTHH" key
      passed in: the first time starting with the key, else 0. */
  method HourIndexNow(times: seq<string>, key: string) returns (idx: nat)
    ensures |times| == 0 ==> idx == 0
    ensures |times| > 0 ==> idx < |times|
    ensures (exists i :: 0 <= i < |times| && StartsWith(times[i], key)) ==>
      StartsWith(times[idx], key) && forall j :: 0 <= j < idx ==> !StartsWith(times[j], key)
    ensures (forall i :: 0 <= i < |times| ==> !StartsWith(times[i], key)) ==> idx == 0
  {
    if |times| == 0 {
      return 0;
    }
    var i := 0;
    while i < |times|
      invariant 0 <= i <= |times|
      invariant forall j :: 0 <= j < i ==> !StartsWith(times[j], key)
    {
      if StartsWith(times[i], key) {
        return i;
      }
      i := i + 1;
    }
    return 0;
  }

  /** The change reported by `nextChangeInsight`. */
  datatype Change = Change(inHours: nat, toCode: int)

  const InsightHorizon: nat := 18

  /** `nextChangeInsight(hourly, startIdx)` over the hourly code list: the
      first later hour inside the 18-hour window whose code differs. */
  method NextChangeInsight(codes: seq<int>, start: nat) returns (r: Option<Change>)
    ensures r.Some? ==>
      && 1 <= r.value.inHours < InsightHorizon
      && start + r.value.inHours < |codes|
      && r.value.toCode == codes[start + r.value.inHours] != codes[start]
      && forall k :: start < k < start + r.value.inHours ==> codes[k] == codes[start]
    ensures r.None? <==>
      (start >= |codes| ||
       forall k :: start < k < |codes| && k < start + InsightHorizon ==> codes[k] == codes[start])
  {
    if |codes| == 0 {
      return None;
    }
    if start >= |codes| {
      // The base code is `undefined` and the scan's first index is already past the end.
      return None;
    }
    var end := if start + InsightHorizon < |codes| then start + InsightHorizon else |codes|;
    var i := start + 1;
    while i < end
      invariant start + 1 <= i <= end
      invariant forall k :: start < k < i ==> codes[k] == codes[start]
    {
      if codes[i] != codes[start] {
        return Some(Change(i - start, codes[i]));
      }
      i := i + 1;
    }
    return None;
  }
}

=== FILE: fx_engine.dfy ===
/** The frame loop of wx-fx.js: surface geometry, the suspension gate, the
    population loop that grows or trims the pool to `wantCount()`, and the
    per-particle motion of one frame. Drawing and frame scheduling are the
    host's; here one frame is a step taking the frame timestamp and the
    reduced-motion preference. */
module FxEngine {
  import opened Numeric
  import opened FxState
  import opened FxParticles

  /** The cached surface size: logical `w`/`h`, the pixel ratio and the
      backing-store size `canvas.width`/`canvas.height`. */
  datatype Geometry = Geometry(w: int, h: int, dpr: real, pixelW: int, pixelH: int)

  /** `resize()`: the element's layout box and `window.devicePixelRatio` are
      parameters; a ratio of 0 stands for a missing one (`|| 1`). */
  function Resize(boxW: real, boxH: real, devicePixelRatio: real): (g: Geometry)
    ensures g.w >= 1 && g.h >= 1
    ensures g.dpr <= 2.0
    ensures boxW >= 1.0 ==> g.w == Floor(boxW)
    ensures boxH >= 1.0 ==> g.h == Floor(boxH)
    ensures boxW < 1.0 ==> g.w == 1
    ensures boxH < 1.0 ==> g.h == 1
    ensures devicePixelRatio == 0.0 ==> g.dpr == 1.0
    ensures devicePixelRatio != 0.0 ==> g.dpr == Min(2.0, devicePixelRatio)
    ensures g.pixelW == Floor(g.w as real * g.dpr) && g.pixelH == Floor(g.h as real * g.dpr)
    ensures g.dpr > 0.0 ==> 0 <= g.pixelW <= 2 * g.w && 0 <= g.pixelH <= 2 * g.h
  {
    var dpr := Min(2.0, if devicePixelRatio == 0.0 then 1.0 else devicePixelRatio);
    var w := if Floor(boxW) >= 1 then Floor(boxW) else 1;
    var h := if Floor(boxH) >= 1 then Floor(boxH) else 1;
    PixelsWithinDoubleSize(w, dpr);
    PixelsWithinDoubleSize(h, dpr);
    Geometry(w, h, dpr, Floor(w as real * dpr), Floor(h as real * dpr))
  }

  lemma PixelsWithinDoubleSize(n: int, dpr: real)
    requires n >= 1 && dpr <= 2.0
    ensures dpr > 0.0 ==> 0 <= Floor(n as real * dpr) <= 2 * n
  {
    if dpr > 0.0 {
      var k := n as real;
      assert k * dpr <= k * 2.0 by {
        assert k * (2.0 - dpr) >= 0.0;
      }
      assert k * dpr >= 0.0;
      FloorMonotone(0.0, k * dpr);
      FloorMonotone(k * dpr, (2 * n) as real);
    }
  }

  /** The engine: FX state, particle pool, the last frame time and the surface. */
  datatype Engine = Engine(state: State, pool: seq<Particle>, lastT: real, geo: Geometry)

  /** `createWXFX`: the default state, an empty pool, and a first `resize()`. */
  function Create(now: real, boxW: real, boxH: real, devicePixelRatio: real): (e: Engine)
    ensures e.state == Initial && e.pool == [] && e.lastT == now
    ensures e.geo.w >= 1 && e.geo.h >= 1
    ensures e.geo == Resize(boxW, boxH, devicePixelRatio)
  {
    Engine(Initial, [], now, Resize(boxW, boxH, devicePixelRatio))
  }

  /** A resize event only replaces the cached geometry: particle positions are
      not rescaled, the state and the pool stay as they are. */
  function ResizeEngine(e: Engine, boxW: real, boxH: real, devicePixelRatio: real): (r: Engine)
    ensures r.state == e.state && r.pool == e.pool && r.lastT == e.lastT
    ensures r.geo.w >= 1 && r.geo.h >= 1 && r.geo.dpr <= 2.0
    ensures r.geo == Resize(boxW, boxH, devicePixelRatio)
  {
    e.(geo := Resize(boxW, boxH, devicePixelRatio))
  }

  /** The longest frame the physics will integrate, in seconds. */
  const MaxFrameSeconds: real := 0.05

  /** The frame delta: elapsed milliseconds in seconds, clamped to 50 ms. */
  function FrameDelta(lastT: real, t: real): (dt: real)
    ensures dt <= MaxFrameSeconds
    ensures (t - lastT) / 1000.0 <= MaxFrameSeconds ==> dt == (t - lastT) / 1000.0
    ensures (t - lastT) / 1000.0 > MaxFrameSeconds ==> dt == MaxFrameSeconds
  {
    Min(MaxFrameSeconds, (t - lastT) / 1000.0)
  }

  /** The gate of `step`: reduced motion, or an intensity of at most 0.01,
      skips the pool and the physics for the frame. */
  predicate Suspended(s: State, reducedMotion: bool) {
    reducedMotion || s.intensity <= 0.01
  }

  /** The draws of the `k`-th spawn of a frame; none once the list runs out. */
  function SpawnDraws(draws: seq<seq<real>>, k: nat): seq<real> {
    if k < |draws| then draws[k] else []
  }

  /** The jitter of the `i`-th particle of a frame; zero once the list runs out. */
  function JitterAt(jitters: seq<Jitter>, i: nat): Jitter {
    if i < |jitters| then jitters[i] else Jitter(0.0, 0.0, 0.0)
  }

  /** Reference result of the population loop: the first `want` particles of
      the pool when it is long enough, else the pool followed by one new
      particle of the mode per missing slot. */
  function Populated(pool: seq<Particle>, want: nat, m: Mode, w: real, h: real,
                     draws: seq<seq<real>>): seq<Particle>
  {
    if |pool| >= want then pool[..want]
    else pool + seq(want - |pool|, k requires 0 <= k < want - |pool| => NewParticle(m, w, h, SpawnDraws(draws, k)))
  }

  /** The population loop: `while (P.length < want) spawn(); while (P.length > want) P.pop();`. */
  method Populate(pool: seq<Particle>, s: State, w: real, h: real, draws: seq<seq<real>>)
    returns (out: seq<Particle>)
    ensures |out| == WantCount(s)
    ensures out == Populated(pool, WantCount(s), s.mode, w, h, draws)
  {
    var want := WantCount(s);
    var grown := Grow(pool, want, s.mode, w, h, draws);
    out := Trim(grown, want);
  }

  /** `while (P.length < want) spawn();`. The loop ends only because `want`
      never exceeds `MAX`: below the cap every `spawn()` appends. */
  method Grow(pool: seq<Particle>, want: nat, m: Mode, w: real, h: real, draws: seq<seq<real>>)
    returns (out: seq<Particle>)
    requires want <= MaxParticles
    ensures |pool| >= want ==> out == pool
    ensures |pool| < want ==> out == Populated(pool, want, m, w, h, draws)
  {
    out := pool;
    while |out| < want
      invariant |out| >= |pool| && out[..|pool|] == pool
      invariant |out| > |pool| ==> |out| <= want
      invariant forall j :: |pool| <= j < |out| ==>
        out[j] == NewParticle(m, w, h, SpawnDraws(draws, j - |pool|))
      decreases want - |out|
    {
      out := Spawn(out, m, w, h, SpawnDraws(draws, |out| - |pool|));
    }
    if |pool| < want {
      var ref := Populated(pool, want, m, w, h, draws);
      assert |out| == |ref|;
      assert forall j :: 0 <= j < |out| ==> out[j] == ref[j];
    }
  }

  /** `while (P.length > want) P.pop();`. */
  method Trim(pool: seq<Particle>, want: nat) returns (out: seq<Particle>)
    ensures |pool| <= want ==> out == pool
    ensures |pool| > want ==> out == pool[..want]
  {
    out := pool;
    while |out| > want
      invariant |out| <= |pool| && out == pool[..|out|]
      invariant |pool| > want ==> |out| >= want
      invariant |pool| <= want ==> out == pool
      decreases |out|
    {
      out := out[..|out| - 1];
    }
  }

  /** `for (const p of P)`: every particle moved by the rule of the mode. */
  method Physics(pool: seq<Particle>, m: Mode, dt: real, wind: real, w: real, h: real,
                 jitters: seq<Jitter>)
    returns (out: seq<Particle>)
    ensures |out| == |pool|
    ensures forall i :: 0 <= i < |pool| ==> out[i] == Advance(pool[i], m, dt, wind, w, h, JitterAt(jitters, i))
  {
    out := [];
    var i := 0;
    while i < |pool|
      invariant 0 <= i <= |pool| && |out| == i
      invariant forall k :: 0 <= k < i ==> out[k] == Advance(pool[k], m, dt, wind, w, h, JitterAt(jitters, k))
    {
      out := out + [Advance(pool[i], m, dt, wind, w, h, JitterAt(jitters, i))];
      i := i + 1;
    }
  }

  /** Wind as the physics uses it: `(windMph || 0) / 30`. */
  function WindFactor(s: State): real {
    s.windMph / 30.0
  }

  /** One call of `step(t)`: the random draws of the frame's spawns and the
      per-particle jitter are parameters. */
  method Step(e: Engine, t: real, reducedMotion: bool, draws: seq<seq<real>>, jitters: seq<Jitter>)
    returns (next: Engine, dt: real)
    ensures dt <= MaxFrameSeconds
    ensures next.state == e.state && next.geo == e.geo && next.lastT == t
    ensures Suspended(e.state, reducedMotion) ==> next.pool == e.pool
    ensures !Suspended(e.state, reducedMotion) ==> |next.pool| == WantCount(e.state)
    ensures !Suspended(e.state, reducedMotion) ==>
      var grown := Populated(e.pool, WantCount(e.state), e.state.mode, e.geo.w as real, e.geo.h as real, draws);
      forall i :: 0 <= i < |next.pool| ==>
        next.pool[i] == Advance(grown[i], e.state.mode, dt, WindFactor(e.state),
                                e.geo.w as real, e.geo.h as real, JitterAt(jitters, i))
    ensures |e.pool| <= MaxParticles ==> |next.pool| <= MaxParticles
  {
    dt := FrameDelta(e.lastT, t);
    if Suspended(e.state, reducedMotion) {
      next := e.(lastT := t);
      return;
    }
    var w, h := e.geo.w as real, e.geo.h as real;
    var grown := Populate(e.pool, e.state, w, h, draws);
    var moved := Physics(grown, e.state.mode, dt, WindFactor(e.state), w, h, jitters);
    next := e.(pool := moved, lastT := t);
  }

  /** Growing only appends and trimming only pops the tail, so the particles
      both pools share keep their slots. */
  lemma PopulatedKeepsPrefix(pool: seq<Particle>, want: nat, m: Mode, w: real, h: real,
                             draws: seq<seq<real>>)
    ensures var r := Populated(pool, want, m, w, h, draws);
      |r| == want
      && (forall i :: 0 <= i < |pool| && i < want ==> r[i] == pool[i])
      && (forall i :: |pool| <= i < want ==> r[i].Kind() == m)
  {
  }

  /** A second frame with the same state changes nothing in the population. */
  lemma PopulatedIdempotent(pool: seq<Particle>, want: nat, m: Mode, w: real, h: real,
                            draws: seq<seq<real>>)
    ensures Populated(Populated(pool, want, m, w, h, draws), want, m, w, h, draws)
            == Populated(pool, want, m, w, h, draws)
  {
    var r := Populated(pool, want, m, w, h, draws);
    assert r[..want] == r;
  }

  /** A mode switch discards nothing: when the pool is at least as long as the
      new target, every surviving particle still has the old mode's shape. */
  lemma ModeSwitchKeepsOldParticles(pool: seq<Particle>, s: State, previous: Mode, w: real, h: real,
                                    draws: seq<seq<real>>)
    requires forall i :: 0 <= i < |pool| ==> pool[i].Kind() == previous
    requires |pool| >= WantCount(s)
    ensures forall i :: 0 <= i < WantCount(s) ==>
      Populated(pool, WantCount(s), s.mode, w, h, draws)[i].Kind() == previous
  {
  }
}

=== FILE: fx_particles.dfy ===
/** Particles of wx-fx.js: the shape each mode spawns, `spawn` with its cap,
    and the per-mode motion and edge rules applied every frame. Each call of
    `Math.random()` is a parameter `u`; `rnd(a, b)` is then `a + u * (b - a)`. */
module FxParticles {
  import opened FxState
  import Numeric

  /** A particle, tagged by the mode that spawned it. */
  datatype Particle =
    | Drop(x: real, y: real, vx: real, vy: real, len: real, a: real)
    | Flake(x: real, y: real, vx: real, vy: real, r: real, wob: real, a: real)
    | Puff(x: real, y: real, vx: real, r: real, a: real)
    | Mote(x: real, y: real, vx: real, vy: real, r: real, a: real)
  {
    function Kind(): Mode {
      match this
      case Drop(_, _, _, _, _, _) => Rain
      case Flake(_, _, _, _, _, _, _) => Snow
      case Puff(_, _, _, _, _) => Fog
      case Mote(_, _, _, _, _, _) => Dust
    }
  }

  /** `Math.PI * 2`. */
  const TwoPi: real := 6.283185307179586

  /** `rnd(a, b)` with the draw of `Math.random()` given as `u`. */
  function Rnd(lo: real, hi: real, u: real): (r: real)
    ensures 0.0 <= u < 1.0 && lo < hi ==> lo <= r < hi
  {
    lo + Numeric.Scale(u, hi - lo)
  }

  /** True when every draw lies where `Math.random()` puts it. */
  predicate Uniform(us: seq<real>) {
    forall i :: 0 <= i < |us| ==> 0.0 <= us[i] < 1.0
  }

  /** The `i`-th draw of a spawn, zero once the given draws run out. */
  function Draw(us: seq<real>, i: nat): (r: real)
    ensures Uniform(us) ==> 0.0 <= r < 1.0
  {
    if i < |us| then us[i] else 0.0
  }

  /** The starting ranges `spawn` samples each field from, for a surface of
      width `w` and height `h`. */
  predicate SpawnedWithin(p: Particle, w: real, h: real) {
    match p
    case Drop(x, y, vx, vy, len, a) =>
      -w * 0.2 <= x < w * 1.2 && -h <= y < 0.0 && 0.2 <= vx < 0.6 && 8.0 <= vy < 16.0
      && 10.0 <= len < 22.0 && 0.08 <= a < 0.16
    case Flake(x, y, vx, vy, r, wob, a) =>
      0.0 <= x < w && -h <= y < 0.0 && -0.4 <= vx < 0.4 && 0.8 <= vy < 1.8
      && 0.8 <= r < 2.2 && 0.0 <= wob < TwoPi && 0.10 <= a < 0.22
    case Puff(x, y, vx, r, a) =>
      -w * 0.2 <= x < w * 1.2 && h * 0.15 <= y < h * 0.75 && 0.12 <= vx < 0.35
      && 80.0 <= r < 170.0 && 0.015 <= a < 0.03
    case Mote(x, y, vx, vy, r, a) =>
      0.0 <= x < w && 0.0 <= y < h && -0.05 <= vx < 0.12 && -0.08 <= vy < 0.05
      && 0.6 <= r < 1.8 && 0.02 <= a < 0.06
  }

  /** The object `spawn` pushes in mode `m`, the draws taken in source order. */
  function NewParticle(m: Mode, w: real, h: real, us: seq<real>): (p: Particle)
    ensures p.Kind() == m
    ensures Uniform(us) && w > 0.0 && h > 0.0 ==> SpawnedWithin(p, w, h)
  {
    match m
    case Rain =>
      Drop(Rnd(-w * 0.2, w * 1.2, Draw(us, 0)), Rnd(-h, 0.0, Draw(us, 1)), Rnd(0.2, 0.6, Draw(us, 2)),
           Rnd(8.0, 16.0, Draw(us, 3)), Rnd(10.0, 22.0, Draw(us, 4)), Rnd(0.08, 0.16, Draw(us, 5)))
    case Snow =>
      Flake(Rnd(0.0, w, Draw(us, 0)), Rnd(-h, 0.0, Draw(us, 1)), Rnd(-0.4, 0.4, Draw(us, 2)),
            Rnd(0.8, 1.8, Draw(us, 3)), Rnd(0.8, 2.2, Draw(us, 4)), Rnd(0.0, TwoPi, Draw(us, 5)),
            Rnd(0.10, 0.22, Draw(us, 6)))
    case Fog =>
      Puff(Rnd(-w * 0.2, w * 1.2, Draw(us, 0)), Rnd(h * 0.15, h * 0.75, Draw(us, 1)),
           Rnd(0.12, 0.35, Draw(us, 2)), Rnd(80.0, 170.0, Draw(us, 3)), Rnd(0.015, 0.03, Draw(us, 4)))
    case Dust =>
      Mote(Rnd(0.0, w, Draw(us, 0)), Rnd(0.0, h, Draw(us, 1)), Rnd(-0.05, 0.12, Draw(us, 2)),
           Rnd(-0.08, 0.05, Draw(us, 3)), Rnd(0.6, 1.8, Draw(us, 4)), Rnd(0.02, 0.06, Draw(us, 5)))
  }

  /** `spawn()`: nothing once the pool holds `MAX` particles, otherwise one new
      particle of the current mode at the tail. */
  function Spawn(pool: seq<Particle>, m: Mode, w: real, h: real, us: seq<real>): (r: seq<Particle>)
    ensures |pool| >= MaxParticles ==> r == pool
    ensures |pool| < MaxParticles ==>
      |r| == |pool| + 1 && r[..|pool|] == pool && r[|pool|].Kind() == m
    ensures |r| <= MaxParticles || r == pool
  {
    if |pool| >= MaxParticles then pool else pool + [NewParticle(m, w, h, us)]
  }

  /** What one frame needs besides the particle: up to two fresh draws for a
      recycle, and the value of `Math.sin(p.wob)` for snow, which lies in [-1, 1]. */
  datatype Jitter = Jitter(u: real, v: real, sine: real)

  predicate ValidJitter(j: Jitter) {
    0.0 <= j.u < 1.0 && 0.0 <= j.v < 1.0 && -1.0 <= j.sine <= 1.0
  }

  /** Rain: fall and drift with the wind; leaving the bottom or the right edge
      restarts the drop above the surface. */
  function RainRule(p: Particle, dt: real, wind: real, w: real, h: real, j: Jitter): (q: Particle)
    requires p.Drop?
    ensures q.Drop? && q.vx == p.vx && q.vy == p.vy && q.len == p.len && q.a == p.a
    ensures ValidJitter(j) && w > 0.0 ==>
      (q.y <= h + 20.0 && q.x <= w + 60.0) || (-w * 0.2 <= q.x < w * 1.2 && -120.0 <= q.y < -20.0)
    ensures var x := p.x + (p.vx + wind * 6.0) * 60.0 * dt; var y := p.y + p.vy * 60.0 * dt;
      !(y > h + 20.0 || x > w + 60.0) ==> q.x == x && q.y == y
    ensures var x := p.x + (p.vx + wind * 6.0) * 60.0 * dt; var y := p.y + p.vy * 60.0 * dt;
      (y > h + 20.0 || x > w + 60.0) && ValidJitter(j) && w > 0.0 ==>
        -w * 0.2 <= q.x < w * 1.2 && -120.0 <= q.y < -20.0
  {
    var x := p.x + (p.vx + wind * 6.0) * 60.0 * dt;
    var y := p.y + p.vy * 60.0 * dt;
    if y > h + 20.0 || x > w + 60.0 then
      Drop(Rnd(-w * 0.2, w * 1.2, j.u), Rnd(-120.0, -20.0, j.v), p.vx, p.vy, p.len, p.a)
    else Drop(x, y, p.vx, p.vy, p.len, p.a)
  }

  /** Snow: wobble sideways and fall; leaving the bottom restarts the flake
      above the surface, and the sides wrap around. */
  function SnowRule(p: Particle, dt: real, wind: real, w: real, h: real, j: Jitter): (q: Particle)
    requires p.Flake?
    ensures q.Flake? && q.vx == p.vx && q.vy == p.vy && q.r == p.r && q.a == p.a
    ensures q.wob == p.wob + dt * (1.2 + wind)
    ensures w >= 0.0 ==> -20.0 <= q.x <= w + 20.0
    ensures ValidJitter(j) && h >= 0.0 ==> q.y <= h + 10.0
    ensures var y := p.y + p.vy * 60.0 * dt; y <= h + 10.0 ==> q.y == y
    ensures var y := p.y + p.vy * 60.0 * dt; y > h + 10.0 && ValidJitter(j) ==>
      -80.0 <= q.y < -10.0 && (w > 0.0 ==> 0.0 <= q.x < w)
    ensures var x := p.x + (p.vx + j.sine * 0.35 + wind * 0.8) * 60.0 * dt; var y := p.y + p.vy * 60.0 * dt;
      y <= h + 10.0 && w >= 0.0 ==>
        (x < -20.0 ==> q.x == w + 20.0) && (x > w + 20.0 ==> q.x == -20.0) && (-20.0 <= x <= w + 20.0 ==> q.x == x)
  {
    var wob := p.wob + dt * (1.2 + wind);
    var x := p.x + (p.vx + j.sine * 0.35 + wind * 0.8) * 60.0 * dt;
    var y := p.y + p.vy * 60.0 * dt;
    var (x1, y1) := if y > h + 10.0 then (Rnd(0.0, w, j.v), Rnd(-80.0, -10.0, j.u)) else (x, y);
    var x2 := if x1 < -20.0 then w + 20.0 else x1;
    var x3 := if x2 > w + 20.0 then -20.0 else x2;
    Flake(x3, y1, p.vx, p.vy, p.r, wob, p.a)
  }

  /** Fog: drift right with the wind; passing the right edge by the radius
      restarts the puff just off the left edge, in a new band. */
  function FogRule(p: Particle, dt: real, wind: real, w: real, h: real, j: Jitter): (q: Particle)
    requires p.Puff?
    ensures q.Puff? && q.vx == p.vx && q.r == p.r && q.a == p.a
    ensures q.x <= w + p.r || q.x == -p.r
    ensures var x := p.x + (p.vx + wind * 0.9) * 60.0 * dt;
      x <= w + p.r ==> q.x == x && q.y == p.y
    ensures var x := p.x + (p.vx + wind * 0.9) * 60.0 * dt;
      x > w + p.r ==> q.x == -p.r && (ValidJitter(j) && h > 0.0 ==> h * 0.15 <= q.y < h * 0.75)
  {
    var x := p.x + (p.vx + wind * 0.9) * 60.0 * dt;
    if x > w + p.r then Puff(-p.r, Rnd(h * 0.15, h * 0.75, j.u), p.vx, p.r, p.a)
    else Puff(x, p.y, p.vx, p.r, p.a)
  }

  /** Dust: slow drift; every edge wraps to the opposite one. */
  function DustRule(p: Particle, dt: real, wind: real, w: real, h: real): (q: Particle)
    requires p.Mote?
    ensures q.Mote? && q.vx == p.vx && q.vy == p.vy && q.r == p.r && q.a == p.a
    ensures w >= 0.0 ==> -10.0 <= q.x <= w + 10.0
    ensures h >= 0.0 ==> -10.0 <= q.y <= h + 10.0
    ensures var x := p.x + (p.vx + wind * 0.25) * 60.0 * dt;
      && (-10.0 <= x <= w + 10.0 ==> q.x == x)
      && (x > w + 10.0 ==> q.x == -10.0)
      && (x < -10.0 && w >= 0.0 ==> q.x == w + 10.0)
    ensures var y := p.y + p.vy * 60.0 * dt;
      && (-10.0 <= y <= h + 10.0 ==> q.y == y)
      && (y > h + 10.0 ==> q.y == -10.0)
      && (y < -10.0 && h >= 0.0 ==> q.y == h + 10.0)
  {
    var x := p.x + (p.vx + wind * 0.25) * 60.0 * dt;
    var y := p.y + p.vy * 60.0 * dt;
    var x1 := if x > w + 10.0 then -10.0 else x;
    var x2 := if x1 < -10.0 then w + 10.0 else x1;
    var y1 := if y > h + 10.0 then -10.0 else y;
    var y2 := if y1 < -10.0 then h + 10.0 else y1;
    Mote(x2, y2, p.vx, p.vy, p.r, p.a)
  }

  /** The rule of the current mode applied to one particle. A particle spawned
      under another mode is left where it is. */
  function Advance(p: Particle, m: Mode, dt: real, wind: real, w: real, h: real, j: Jitter): (q: Particle)
    ensures q.Kind() == p.Kind()
    ensures p.Kind() != m ==> q == p
  {
    if p.Kind() != m then p
    else match p
      case Drop(_, _, _, _, _, _) => RainRule(p, dt, wind, w, h, j)
      case Flake(_, _, _, _, _, _, _) => SnowRule(p, dt, wind, w, h, j)
      case Puff(_, _, _, _, _) => FogRule(p, dt, wind, w, h, j)
      case Mote(_, _, _, _, _, _) => DustRule(p, dt, wind, w, h)
  }
}

=== FILE: fx_state.dfy ===
/** The ambient-FX state of wx-fx.js: the record `{mode, intensity, windMph,
    opacity}`, its shallow-merge `set`, and the per-mode target population. */
module FxState {
  import opened Wrappers
  import opened Numeric

  /** The weather mode chosen by the page. */
  datatype Mode = Rain | Snow | Fog | Dust

  datatype State = State(mode: Mode, intensity: real, windMph: real, opacity: real)

  /** The state the engine starts with. */
  const Initial := State(Dust, 0.0, 0.0, 0.55)

  /** The hard cap `MAX` on the particle pool. */
  const MaxParticles: nat := 220

  /** An argument of `set`: only the keys present are merged in. */
  datatype Update = Update(mode: Option<Mode>, intensity: Option<real>,
                           windMph: Option<real>, opacity: Option<real>)

  const NoChange := Update(None, None, None, None)

  predicate IntensityInRange(s: State) {
    0.0 <= s.intensity <= 1.0
  }

  /** `set(next)`: `{ ...state, ...next, intensity: clamp01(next.intensity ?? state.intensity) }`. */
  function Set(s: State, u: Update): (r: State)
    ensures IntensityInRange(r)
    ensures u.mode.Some? ==> r.mode == u.mode.value
    ensures u.mode.None? ==> r.mode == s.mode
    ensures u.windMph.Some? ==> r.windMph == u.windMph.value
    ensures u.windMph.None? ==> r.windMph == s.windMph
    ensures u.opacity.Some? ==> r.opacity == u.opacity.value
    ensures u.opacity.None? ==> r.opacity == s.opacity
    ensures u.intensity.Some? && 0.0 <= u.intensity.value <= 1.0 ==> r.intensity == u.intensity.value
    ensures u.intensity.None? && IntensityInRange(s) ==> r.intensity == s.intensity
    ensures var i := u.intensity.GetOr(s.intensity);
      (i < 0.0 ==> r.intensity == 0.0) && (i > 1.0 ==> r.intensity == 1.0)
      && (0.0 <= i <= 1.0 ==> r.intensity == i)
  {
    State(
      u.mode.GetOr(s.mode),
      Clamp01(u.intensity.GetOr(s.intensity)),
      u.windMph.GetOr(s.windMph),
      u.opacity.GetOr(s.opacity))
  }

  /** Applying the same update twice is the same as applying it once. */
  lemma SetIdempotent(s: State, u: Update)
    ensures Set(Set(s, u), u) == Set(s, u)
  {
    if u.intensity.None? {
      Clamp01Idempotent(s.intensity);
    } else {
      Clamp01Idempotent(u.intensity.value);
    }
  }

  /** `set({})` re-clamps the intensity and so leaves an in-range state alone. */
  lemma SetNothingKeepsState(s: State)
    requires IntensityInRange(s)
    ensures Set(s, NoChange) == s
  {
  }

  /** Base population and the extra population at full intensity, per mode. */
  function Density(m: Mode): (r: (nat, nat))
    ensures r.0 + r.1 <= MaxParticles
  {
    match m
    case Rain => (50, 170)
    case Snow => (30, 120)
    case Fog => (6, 16)
    case Dust => (10, 22)
  }

  /** `wantCount()`: `floor(base + clamp01(intensity) * span)`. */
  function WantCount(s: State): (n: nat)
    ensures Density(s.mode).0 <= n <= Density(s.mode).0 + Density(s.mode).1
    ensures n <= MaxParticles
  {
    var (base, span) := Density(s.mode);
    var i := Clamp01(s.intensity);
    assert base as real <= base as real + i * span as real <= (base + span) as real;
    FloorMonotone(base as real, base as real + i * span as real);
    FloorMonotone(base as real + i * span as real, (base + span) as real);
    Floor(base as real + i * span as real)
  }

  /** More intensity never asks for fewer particles. */
  lemma {:induction false} WantCountMonotone(s: State, t: State)
    requires s.mode == t.mode
    requires s.intensity <= t.intensity
    ensures WantCount(s) <= WantCount(t)
  {
    var (base, span) := Density(s.mode);
    ClampMonotone(0.0, 1.0, s.intensity, t.intensity);
    var i, j := Clamp01(s.intensity), Clamp01(t.intensity);
    assert i * span as real <= j * span as real;
    FloorMonotone(base as real + i * span as real, base as real + j * span as real);
  }

  lemma WantCountExamples()
    ensures WantCount(State(Rain, 1.0, 0.0, 0.55)) == 220
    ensures WantCount(State(Rain, 0.5, 0.0, 0.55)) == 135
    ensures WantCount(State(Snow, 2.0, 0.0, 0.55)) == 150
    ensures WantCount(State(Fog, 0.25, 0.0, 0.55)) == 10
    ensures WantCount(State(Dust, -1.0, 0.0, 0.55)) == 10
  {
  }
}

=== FILE: legacy_app.dfy ===
/** The older page script icons/wx-app.js: its barometer with trend memory,
    the insight line and the bounds of the hourly and daily strips drawn by
    `refresh`. */
module LegacyApp {
  import opened Wrappers
  import opened Numeric
  import opened Text
  import Barometer
  import CoreHelpers
  import WeatherCodes

  /** What one `updateBarometer(pressure)` call shows and remembers. The
      trend text is `None` when the page has no trend element. */
  datatype Reading = Reading(degrees: real, readout: string, trendText: Option<string>,
                             lastPressure: Option<real>)

  /** `updateBarometer(pressure)` with the remembered `lastPressure`. */
  function UpdateBarometer(last: Option<real>, pressure: real, hasTrendElement: bool): (r: Reading)
    ensures Barometer.MinDeg <= r.degrees <= Barometer.MaxDeg
    ensures pressure <= Barometer.MinHpa ==> r.degrees == Barometer.MinDeg
    ensures pressure >= Barometer.MaxHpa ==> r.degrees == Barometer.MaxDeg
    ensures r.trendText.Some? <==> hasTrendElement
    ensures hasTrendElement && last.None? ==> r.trendText == Some("Stable")
    ensures hasTrendElement && last.Some? ==>
      && (r.trendText == Some("Stable") <==> -1.0 < pressure - last.value < 1.0)
      && (r.trendText == Some("Rising") <==> pressure - last.value >= 1.0)
      && (r.trendText == Some("Falling") <==> pressure - last.value <= -1.0)
    ensures EndsWith(r.readout, " hPa")
    ensures ParseInt(r.readout[..|r.readout| - 4]) == Some(JsRound(pressure))
    ensures r.lastPressure == Some(pressure)
  {
    var clamped := Clamp(Barometer.MinHpa, Barometer.MaxHpa, pressure);
    var ratio := (clamped - Barometer.MinHpa) / (Barometer.MaxHpa - Barometer.MinHpa);
    var deg := -135.0 + ratio * 180.0;
    var digits := IntToString(JsRound(pressure));
    var readout := digits + " hPa";
    assert readout[..|readout| - 4] == digits && readout[|readout| - 4..] == " hPa";
    IntRoundTrip(JsRound(pressure));
    var trend := if hasTrendElement then Some(Barometer.ClassifyTrend(last, pressure).Text()) else None;
    Reading(deg, readout, trend, Some(pressure))
  }

  /** The older needle and the newer gauge point the same way for every
      pressure: both map [970, 1040] hPa onto [-135, 45] degrees. */
  lemma NeedleAgreesWithNewerGauge(last: Option<real>, pressure: real, hasTrendElement: bool)
    ensures UpdateBarometer(last, pressure, hasTrendElement).degrees
         == Barometer.UpdateBarometerInstant(pressure).degrees
  {
  }

  /** `const p = hourly.pressure[idx]; if (p != null) updateBarometer(p)`:
      a missing sample leaves the memory alone. */
  function RefreshBarometer(last: Option<real>, pressures: seq<Option<real>>, idx: nat, hasTrendElement: bool): (r: Option<Reading>)
    ensures r.Some? <==> idx < |pressures| && pressures[idx].Some?
    ensures r.Some? ==> r.value.lastPressure == pressures[idx]
    ensures r.Some? ==> r.value == UpdateBarometer(last, pressures[idx].value, hasTrendElement)
  {
    if idx < |pressures| && pressures[idx].Some? then Some(UpdateBarometer(last, pressures[idx].value, hasTrendElement))
    else None
  }

  const StableText := "Stable conditions ahead"
  const ChangePrefix := "Next change: "

  /** The insight line for the result of `nextChangeInsight`. */
  function InsightText(change: Option<CoreHelpers.Change>): (r: string)
    ensures change.None? <==> r == StableText
    ensures change.Some? ==> StartsWith(r, ChangePrefix + WeatherCodes.LabelForWeatherCode(change.value.toCode) + " in ~")
    ensures change.Some? ==> EndsWith(r, "h")
    ensures change.Some? ==>
      var head := ChangePrefix + WeatherCodes.LabelForWeatherCode(change.value.toCode) + " in ~";
      |r| >= |head| + 2 && ParseInt(r[|head|..|r| - 1]) == Some(change.value.inHours as int)
  {
    match change
    case None => StableText
    case Some(c) =>
      var head := ChangePrefix + WeatherCodes.LabelForWeatherCode(c.toCode) + " in ~";
      var r := head + NatToString(c.inHours) + "h";
      assert r[..|head|] == head;
      assert r[..|ChangePrefix|] == ChangePrefix;
      assert r[0] == 'N' && StableText[0] == 'S';
      assert r[|head|..|r| - 1] == NatToString(c.inHours);
      IntRoundTrip(c.inHours);
      r
  }

  /** Distinct changes to codes with the same label produce distinct lines:
      the hour count can be read back from the text. */
  lemma InsightTextKeepsHours(a: CoreHelpers.Change, b: CoreHelpers.Change)
    requires WeatherCodes.LabelForWeatherCode(a.toCode) == WeatherCodes.LabelForWeatherCode(b.toCode)
    requires a.inHours != b.inHours
    ensures InsightText(Some(a)) != InsightText(Some(b))
  {
  }

  /** The insight as `refresh` produces it: the stable line exactly when no
      hour in the 18-hour window after `idx` has a different code. */
  method Insight(codes: seq<int>, idx: nat) returns (text: string)
    ensures text == StableText <==>
      (idx >= |codes| ||
       forall k :: idx < k < |codes| && k < idx + CoreHelpers.InsightHorizon ==> codes[k] == codes[idx])
    ensures text != StableText ==> exists k :: idx < k < |codes| && codes[k] != codes[idx]
  {
    var change := CoreHelpers.NextChangeInsight(codes, idx);
    text := InsightText(change);
  }

  /** The time label of a chip or row: "Now" / "Today" for the first one,
      otherwise the formatted time at that index. */
  datatype Slot = First | At(index: nat)

  /** The hourly strip: chips for `idx` up to `min(idx + 12, len) - 1`,
      drawn only when there is at least one time. */
  method HourlyWindow(timeCount: nat, idx: nat) returns (chips: seq<Slot>)
    ensures |chips| <= 12
    ensures |chips| == if idx >= timeCount then 0 else if idx + 12 < timeCount then 12 else timeCount - idx
    ensures |chips| > 0 ==> chips[0] == First
    ensures forall k :: 0 < k < |chips| ==> chips[k] == At(idx + k) && idx + k < timeCount
  {
    chips := [];
    if timeCount == 0 {
      return;
    }
    var sliceEnd := if idx + 12 < timeCount then idx + 12 else timeCount;
    var i := idx;
    while i < sliceEnd
      invariant idx <= i || sliceEnd <= idx
      invariant |chips| == if i <= idx then 0 else i - idx
      invariant i > idx ==> i <= sliceEnd
      invariant |chips| > 0 ==> chips[0] == First
      invariant forall k :: 0 < k < |chips| ==> chips[k] == At(idx + k)
    {
      chips := chips + [if i == idx then First else At(i)];
      i := i + 1;
    }
  }

  /** The daily list: at most seven rows, the first labelled "Today". */
  method DailyRows(dayCount: nat) returns (rows: seq<Slot>)
    ensures |rows| == if dayCount < 7 then dayCount else 7
    ensures |rows| > 0 ==> rows[0] == First
    ensures forall k :: 0 < k < |rows| ==> rows[k] == At(k)
  {
    rows := [];
    if dayCount == 0 {
      return;
    }
    var days := if dayCount < 7 then dayCount else 7;
    var i := 0;
    while i < days
      invariant 0 <= i <= days
      invariant |rows| == i
      invariant i > 0 ==> rows[0] == First
      invariant forall k :: 0 < k < i ==> rows[k] == At(k)
    {
      rows := rows + [if i == 0 then First else At(i)];
      i := i + 1;
    }
  }
}

=== FILE: legacy_core.dfy ===
/** The older copy of the conversion helpers in icons/wx-core.js. It has no
    guard against non-numbers, and it converts whole hourly and daily
    temperature arrays while normalising the forecast. */
module LegacyCore {
  import opened Numeric
  import CoreHelpers
  import Text

  /** One entry of an Open-Meteo temperature array: a number, or `null` for
      an hour the service has no value for. */
  datatype Entry = Number(v: real) | Null

  /** `convertTemp(c, unit)` without the "--" guard. `Math.round` and the
      arithmetic of `cToF` turn `null` into 0, so a missing entry reads as
      32 in Fahrenheit and 0 in Celsius. */
  function ConvertTemp(c: Entry, unit: string): (r: int)
    ensures c.Number? && unit == "F" ==> CoreHelpers.RoundsTo(c.v * 9.0 / 5.0 + 32.0, r)
    ensures c.Number? && unit != "F" ==> CoreHelpers.RoundsTo(c.v, r)
    ensures c.Null? ==> r == (if unit == "F" then 32 else 0)
  {
    var v := if c.Null? then 0.0 else c.v;
    if unit == "F" then JsRound(CoreHelpers.CToF(v)) else JsRound(v)
  }

  /** `windText(mph, unit)` without the "--" guard. */
  function WindText(mph: real, unit: string): (r: string)
    ensures r == CoreHelpers.WindText(CoreHelpers.Num(mph), unit)
  {
    var guarded := CoreHelpers.WindText(CoreHelpers.Num(mph), unit);
    if unit == "F" then
      var r := Text.IntToString(JsRound(mph)) + " mph";
      assert r == guarded;
      r
    else
      var r := Text.IntToString(JsRound(mph * CoreHelpers.KmPerMile)) + " km/h";
      assert r == guarded;
      r
  }

  /** On every number the old and the guarded conversion agree. */
  lemma ConvertTempAgreesWithGuarded(c: real, unit: string)
    ensures CoreHelpers.ConvertTemp(CoreHelpers.Num(c), unit) == CoreHelpers.Reading(ConvertTemp(Number(c), unit))
  {
  }

  /** On `null` they differ: `typeof null` is not "number", so the guarded
      conversion shows "--" where the old one shows a reading of 32 or 0. */
  lemma NullReadsAsFreezing(unit: string)
    ensures CoreHelpers.ConvertTemp(CoreHelpers.NotNumber, unit) == CoreHelpers.NoReading
    ensures ConvertTemp(Null, unit) == (if unit == "F" then 32 else 0)
    ensures ConvertTemp(Null, unit) == ConvertTemp(Number(0.0), unit)
  {
  }

  /** `(temps || []).map((c) => convertTemp(c, unit))`: one reading per input,
      at the same index. */
  method ConvertSeries(temps: seq<Entry>, unit: string) returns (out: seq<int>)
    ensures |out| == |temps|
    ensures forall i :: 0 <= i < |temps| ==> out[i] == ConvertTemp(temps[i], unit)
  {
    out := [];
    var i := 0;
    while i < |temps|
      invariant 0 <= i <= |temps|
      invariant |out| == i
      invariant forall j :: 0 <= j < i ==> out[j] == ConvertTemp(temps[j], unit)
    {
      out := out + [ConvertTemp(temps[i], unit)];
      i := i + 1;
    }
  }
}

=== FILE: numeric.dfy ===
/** Numeric helpers shared by every script: clamping, JavaScript's
    `Math.round`, `Math.floor` and the truncating `%` by 1, all over `real`. */
module Numeric {

  function Min(a: real, b: real): (r: real)
    ensures r <= a && r <= b
    ensures r == a || r == b
  {
    if a <= b then a else b
  }

  function Max(a: real, b: real): (r: real)
    ensures r >= a && r >= b
    ensures r == a || r == b
  {
    if a >= b then a else b
  }

  /** `Math.max(lo, Math.min(hi, x))`. */
  function Clamp(lo: real, hi: real, x: real): (r: real)
    requires lo <= hi
    ensures lo <= r <= hi
    ensures lo <= x <= hi ==> r == x
    ensures x < lo ==> r == lo
    ensures x > hi ==> r == hi
  {
    Max(lo, Min(hi, x))
  }

  /** `clamp01` of wx-fx.js and the intensity clamp of wx-app.js. */
  function Clamp01(x: real): (r: real)
    ensures 0.0 <= r <= 1.0
    ensures 0.0 <= x <= 1.0 ==> r == x
    ensures x < 0.0 ==> r == 0.0
    ensures x > 1.0 ==> r == 1.0
  {
    Clamp(0.0, 1.0, x)
  }

  lemma Clamp01Idempotent(x: real)
    ensures Clamp01(Clamp01(x)) == Clamp01(x)
  {
  }

  lemma {:induction false} ClampMonotone(lo: real, hi: real, x: real, y: real)
    requires lo <= hi
    requires x <= y
    ensures Clamp(lo, hi, x) <= Clamp(lo, hi, y)
  {
  }

  /** `Math.floor` on a real. */
  function Floor(x: real): (r: int)
    ensures r as real <= x < r as real + 1.0
  {
    x.Floor
  }

  lemma FloorMonotone(x: real, y: real)
    requires x <= y
    ensures Floor(x) <= Floor(y)
  {
  }

  lemma FloorOfInt(n: int)
    ensures Floor(n as real) == n
  {
  }

  /** `Math.round`: the nearest integer, halves rounded up (towards +infinity),
      which is `floor(x + 0.5)` over the reals. */
  function JsRound(x: real): (r: int)
    ensures x - 0.5 < r as real <= x + 0.5
  {
    Floor(x + 0.5)
  }

  lemma JsRoundOfInt(n: int)
    ensures JsRound(n as real) == n
  {
  }

  lemma JsRoundMonotone(x: real, y: real)
    requires x <= y
    ensures JsRound(x) <= JsRound(y)
  {
    FloorMonotone(x + 0.5, y + 0.5);
  }

  /** Truncation toward zero, the integer part JavaScript's `%` keeps the sign of. */
  function Trunc(x: real): (r: int)
    ensures x >= 0.0 ==> 0.0 <= x - r as real < 1.0
    ensures x < 0.0 ==> -1.0 < x - r as real <= 0.0
  {
    if x >= 0.0 then Floor(x) else -Floor(-x)
  }

  /** JavaScript's `x % 1`: the remainder carries the sign of `x`. */
  function JsRem1(x: real): (r: real)
    ensures -1.0 < r < 1.0
    ensures x >= 0.0 ==> r >= 0.0
    ensures x <= 0.0 ==> r <= 0.0
    ensures (x - r).Floor as real == x - r
  {
    x - Trunc(x) as real
  }

  /** `u * span`; for a draw `u` in [0, 1) the product stays inside the span. */
  function Scale(u: real, span: real): (r: real)
    ensures 0.0 <= u < 1.0 && 0.0 < span ==> 0.0 <= r < span
  {
    u * span
  }
}

=== FILE: text.dfy ===
/** String helpers: the decimal text a JavaScript template literal produces
    for an integer (`${n}`), its inverse, and `String.prototype.startsWith`. */
module Text {
  import opened Wrappers

  predicate IsDigit(c: char) {
    '0' <= c <= '9'
  }

  predicate AllDigits(s: string) {
    forall i :: 0 <= i < |s| ==> IsDigit(s[i])
  }

  function DigitChar(d: nat): (c: char)
    requires d < 10
    ensures IsDigit(c)
  {
    ['0', '1', '2', '3', '4', '5', '6', '7', '8', '9'][d]
  }

  function DigitValue(c: char): (d: nat)
    requires IsDigit(c)
    ensures d < 10
  {
    (c as int - '0' as int) as nat
  }

  lemma DigitRoundTrip(d: nat)
    requires d < 10
    ensures DigitValue(DigitChar(d)) == d
  {
  }

  /** Decimal digits of `n`, most significant first, without leading zeros. */
  function NatToString(n: nat): (s: string)
    ensures |s| >= 1 && AllDigits(s)
    ensures n >= 10 <==> |s| >= 2
    decreases n
  {
    if n < 10 then [DigitChar(n)] else NatToString(n / 10) + [DigitChar(n % 10)]
  }

  /** `${i}` for an integer value. */
  function IntToString(i: int): (s: string)
    ensures |s| >= 1
    ensures i >= 0 ==> AllDigits(s)
    ensures i < 0 ==> s[0] == '-' && |s| >= 2 && AllDigits(s[1..])
  {
    if i >= 0 then NatToString(i) else "-" + NatToString(-i)
  }

  /** The value of a non-empty run of decimal digits. */
  function ParseNat(s: string): nat
    requires |s| >= 1 && AllDigits(s)
    decreases |s|
  {
    if |s| == 1 then DigitValue(s[0])
    else ParseNat(s[..|s| - 1]) * 10 + DigitValue(s[|s| - 1])
  }

  /** Reads back an optionally negative decimal integer. */
  function ParseInt(s: string): Option<int> {
    if |s| >= 2 && s[0] == '-' && AllDigits(s[1..]) then Some(-(ParseNat(s[1..]) as int))
    else if |s| >= 1 && AllDigits(s) then Some(ParseNat(s) as int)
    else None
  }

  lemma {:induction false} NatRoundTrip(n: nat)
    ensures ParseNat(NatToString(n)) == n
    decreases n
  {
    if n >= 10 {
      var s := NatToString(n);
      var prefix := NatToString(n / 10);
      assert s == prefix + [DigitChar(n % 10)];
      assert s[..|s| - 1] == prefix;
      NatRoundTrip(n / 10);
      DigitRoundTrip(n % 10);
    } else {
      DigitRoundTrip(n);
    }
  }

  /** The decimal text of an integer determines the integer. */
  lemma IntRoundTrip(i: int)
    ensures ParseInt(IntToString(i)) == Some(i)
  {
    if i >= 0 {
      NatRoundTrip(i);
    } else {
      var s := IntToString(i);
      assert s[1..] == NatToString(-i);
      NatRoundTrip(-i);
    }
  }

  lemma IntToStringInjective(i: int, j: int)
    requires IntToString(i) == IntToString(j)
    ensures i == j
  {
    IntRoundTrip(i);
    IntRoundTrip(j);
  }

  /** `s.startsWith(prefix)`. */
  predicate StartsWith(s: string, prefix: string) {
    |prefix| <= |s| && s[..|prefix|] == prefix
  }

  /** `s.endsWith(suffix)`. */
  predicate EndsWith(s: string, suffix: string) {
    |suffix| <= |s| && s[|s| - |suffix|..] == suffix
  }
}

=== FILE: weather_codes.dfy ===
/** The WMO weather-interpretation codes (WMO code table 4677, as served by
    Open-Meteo) and the mappings wx-core.js derives from them: a label, an
    icon, a sky mood and the background visuals for a mood. The copies of
    these helpers in icons/wx-core.js are identical, so they are modelled once. */
module WeatherCodes {
  import opened Text

  const IconBase := "icons/"
  const FallbackFile := "weather.svg"

  /** One `<img>` element built by `iconFromWeatherCode`. */
  datatype Img = Img(src: string, alt: string, cssClass: string)

  /** A contiguous run of codes sharing a label; an open-ended band has no upper bound. */
  datatype Band = Band(lo: int, hi: int, openEnded: bool, name: string)

  predicate InBand(code: int, b: Band) {
    b.lo <= code && (b.openEnded || code <= b.hi)
  }

  /** The ranges `labelForWeatherCode` compares a code against, in its order. */
  const Bands: seq<Band> := [
    Band(0, 0, false, "Clear"),
    Band(1, 1, false, "Mainly clear"),
    Band(2, 2, false, "Partly cloudy"),
    Band(3, 3, false, "Overcast"),
    Band(45, 48, false, "Fog"),
    Band(51, 57, false, "Drizzle"),
    Band(61, 67, false, "Rain"),
    Band(71, 77, false, "Snow"),
    Band(80, 82, false, "Showers"),
    Band(85, 86, false, "Snow showers"),
    Band(95, 95, true, "Thunderstorm")
  ]

  predicate IsFog(code: int) { 45 <= code <= 48 }
  predicate IsDrizzle(code: int) { 51 <= code <= 57 }
  predicate IsRain(code: int) { 61 <= code <= 67 }
  predicate IsSnow(code: int) { 71 <= code <= 77 }
  predicate IsShowers(code: int) { 80 <= code <= 82 }
  predicate IsSnowShowers(code: int) { 85 <= code <= 86 }
  predicate IsThunder(code: int) { code >= 95 }

  /** True when some band of the table covers the code. */
  predicate IsKnownCode(code: int) {
    0 <= code <= 3 || IsFog(code) || IsDrizzle(code) || IsRain(code) || IsSnow(code)
    || IsShowers(code) || IsSnowShowers(code) || IsThunder(code)
  }

  /** `labelForWeatherCode`: the first range that matches wins. */
  function LabelForWeatherCode(code: int): (r: string)
    ensures r == "Weather" <==> !IsKnownCode(code)
  {
    if code == 0 then "Clear"
    else if code == 1 then "Mainly clear"
    else if code == 2 then "Partly cloudy"
    else if code == 3 then "Overcast"
    else if IsFog(code) then "Fog"
    else if IsDrizzle(code) then "Drizzle"
    else if IsRain(code) then "Rain"
    else if IsSnow(code) then "Snow"
    else if IsShowers(code) then "Showers"
    else if IsSnowShowers(code) then "Snow showers"
    else if IsThunder(code) then "Thunderstorm"
    else "Weather"
  }

  /** No code lies in two bands, so the order of the tests does not matter. */
  lemma BandsDisjoint(code: int, i: nat, j: nat)
    requires i < j < |Bands|
    ensures !(InBand(code, Bands[i]) && InBand(code, Bands[j]))
  {
  }

  /** The label is the label of the band holding the code, or "Weather" when
      no band holds it. */
  lemma LabelIsBandLabel(code: int)
    ensures forall i :: 0 <= i < |Bands| && InBand(code, Bands[i]) ==>
              LabelForWeatherCode(code) == Bands[i].name
    ensures (forall i :: 0 <= i < |Bands| ==> !InBand(code, Bands[i])) ==>
              LabelForWeatherCode(code) == "Weather"
  {
    if forall i :: 0 <= i < |Bands| ==> !InBand(code, Bands[i]) {
      assert !InBand(code, Bands[0]) && !InBand(code, Bands[1]) && !InBand(code, Bands[2]);
      assert !InBand(code, Bands[3]) && !InBand(code, Bands[4]) && !InBand(code, Bands[5]);
      assert !InBand(code, Bands[6]) && !InBand(code, Bands[7]) && !InBand(code, Bands[8]);
      assert !InBand(code, Bands[9]) && !InBand(code, Bands[10]);
    }
  }

  /** Every icon file the helpers can name. */
  const IconFiles: set<string> := {
    "day.svg", "night.svg", "cloudy-day-1.svg", "cloudy-night-1.svg", "cloudy.svg",
    "rainy-1.svg", "rainy-4.svg", "rainy-6.svg", "snowy-4.svg", "snowy-6.svg",
    "thunder.svg", FallbackFile
  }

  /** The file and alt text chosen by `iconFromWeatherCode`. */
  function IconChoice(code: int, isDay: bool): (r: (string, string))
    ensures r.0 in IconFiles
    ensures r.0 == FallbackFile <==> !IsKnownCode(code)
  {
    if code == 0 then (if isDay then "day.svg" else "night.svg", if isDay then "Clear sky" else "Clear night")
    else if code == 1 || code == 2 then (if isDay then "cloudy-day-1.svg" else "cloudy-night-1.svg", "Partly cloudy")
    else if code == 3 then ("cloudy.svg", "Overcast")
    else if IsFog(code) then ("cloudy.svg", "Fog")
    else if IsDrizzle(code) then ("rainy-1.svg", "Drizzle")
    else if IsRain(code) then ("rainy-4.svg", "Rain")
    else if IsSnow(code) then ("snowy-4.svg", "Snow")
    else if IsShowers(code) then ("rainy-6.svg", "Rain showers")
    else if IsSnowShowers(code) then ("snowy-6.svg", "Snow showers")
    else if IsThunder(code) then ("thunder.svg", "Thunderstorm")
    else (FallbackFile, "Weather")
  }

  /** `iconFromWeatherCode(code, isDay, cssClass)`: the source is the icon
      directory followed by one of the known files. */
  function IconFromWeatherCode(code: int, isDay: bool, cssClass: string): (r: Img)
    ensures StartsWith(r.src, IconBase) && r.src[|IconBase|..] in IconFiles
    ensures r.cssClass == cssClass
    ensures r.src == IconBase + FallbackFile <==> !IsKnownCode(code)
    ensures code == 0 ==> r.src == IconBase + (if isDay then "day.svg" else "night.svg")
  {
    var choice := IconChoice(code, isDay);
    var src := IconBase + choice.0;
    assert src[..|IconBase|] == IconBase && src[|IconBase|..] == choice.0;
    Img(src, choice.1, cssClass)
  }

  /** Only clear and partly cloudy skies (codes 0-2) have day and night icons. */
  lemma IconDayNightOnlyForClearSkies(code: int, cssClass: string)
    ensures IconFromWeatherCode(code, true, cssClass) != IconFromWeatherCode(code, false, cssClass)
            <==> 0 <= code <= 2
  {
  }

  /** The fallback icon and the fallback label go together. */
  lemma IconFallbackMatchesLabel(code: int, isDay: bool, cssClass: string)
    ensures IconFromWeatherCode(code, isDay, cssClass).alt == "Weather"
            <==> LabelForWeatherCode(code) == "Weather"
  {
  }

  /** The sky moods returned by `skyMood`; `Key` is the string the code uses. */
  datatype Mood = Clear | ClearNight | Overcast | RainMood | SnowMood | Default {
    function Key(): string {
      match this
      case Clear => "clear"
      case ClearNight => "clear-night"
      case Overcast => "overcast"
      case RainMood => "rain"
      case SnowMood => "snow"
      case Default => "default"
    }
  }

  /** Rain-like codes for the sky mood: rain, showers and thunderstorms. */
  predicate IsRainyMoodCode(code: int) {
    IsRain(code) || IsShowers(code) || IsThunder(code)
  }

  /** `skyMood(code, isDay)`. */
  function SkyMood(code: int, isDay: bool): (r: Mood)
    ensures r == ClearNight <==> !isDay
    ensures r == Clear <==> isDay && (code == 0 || code == 1)
    ensures r == Overcast <==> isDay && (code == 2 || code == 3)
    ensures r == RainMood <==> isDay && IsRainyMoodCode(code)
    ensures r == SnowMood <==> isDay && IsSnow(code)
  {
    if !isDay then ClearNight
    else if code == 0 || code == 1 then Clear
    else if code == 2 || code == 3 then Overcast
    else if IsRainyMoodCode(code) then RainMood
    else if IsSnow(code) then SnowMood
    else Default
  }

  /** In daylight, drizzle, fog and snow showers have no mood of their own. */
  lemma SkyMoodFallsBackForDrizzleFogAndSnowShowers(code: int)
    requires IsDrizzle(code) || IsFog(code) || IsSnowShowers(code)
    ensures SkyMood(code, true) == Default
  {
  }

  /** Background visuals of one mood. */
  datatype Visuals = Visuals(img: string, top: string, bot: string)

  const DefaultVisuals := Visuals("url(\"./boom.png\")", "#274690", "#020617")

  const VisualsTable: map<string, Visuals> := map[
    "clear" := Visuals("url(\"./boom.png\")", "#3b82f6", "#020617"),
    "clear-night" := Visuals("url(\"./boom.png\")", "#0f172a", "#020617"),
    "overcast" := Visuals("url(\"./bg-live-dc.jpg\")", "#475569", "#0b1220"),
    "rain" := Visuals("url(\"./bg-live-dc.jpg\")", "#1f2937", "#020617"),
    "snow" := Visuals("url(\"./boom.png\")", "#60a5fa", "#0b1220"),
    "default" := DefaultVisuals
  ]

  /** `visualsForMood(mood)`: total, with the default entry for any other key. */
  function VisualsForMood(mood: string): (r: Visuals)
    ensures r in VisualsTable.Values
    ensures mood in VisualsTable ==> r == VisualsTable[mood]
    ensures mood !in VisualsTable ==> r == DefaultVisuals
  {
    if mood in VisualsTable then VisualsTable[mood] else VisualsTable["default"]
  }

  /** Every mood `skyMood` can produce has its own entry, and the six entries
      are told apart by their top colour. */
  lemma EveryMoodHasOwnVisuals(m: Mood, n: Mood)
    ensures m.Key() in VisualsTable
    ensures m != n ==> VisualsForMood(m.Key()).top != VisualsForMood(n.Key()).top
  {
  }
}

=== FILE: wrappers.dfy ===
/** The optional value used wherever the JavaScript code has `null`, `undefined`
    or an absent object key. */
module Wrappers {

  datatype Option<+T> = None | Some(value: T) {

    /** The `??` operator: the carried value, or the fallback when absent. */
    function GetOr(fallback: T): (r: T)
      ensures Some? ==> r == value
      ensures None? ==> r == fallback
    {
      match this
      case Some(v) => v
      case None => fallback
    }
  }
}
